=== FILE: README.md ===
# SimpleDB buffer pool and aggregators, in Dafny

This project models three components of a teaching relational storage engine
written in Java.

- **The buffer pool** (`acmdb-lab5/src/java/simpledb/BufferPool.java`). This is
  the page cache shared by all transactions, together with page-level locking.
  - Every page has a lock entry: a set of shared holders and an optional
    exclusive holder (`LockTable`).
  - A refused lock request records wait-for edges from the requester to the
    page's holders. A depth-first search then looks for a cycle through the
    requester and aborts it if one exists (`WaitForGraph`).
  - On a `getPage` miss the cache evicts only clean pages (NO-STEAL) so as to
    stay within `npages`. The tuple operations add the pages they modify
    without evicting, so they can take the cache past `npages`. `flushPage`
    writes a page to the disk and `discardPage` drops it (`PageCache`).
  - `BufferPool` puts these together:
    - `getPage`, reduced to one lock attempt;
    - `releasePage` and `holdsLock`;
    - `transactionComplete`, which on commit writes every dirty page back to
      disk (FORCE) and on abort restores the before-images;
    - the cache update done by `insertTuple` and `deleteTuple`.
- **The integer aggregator** (`acmdb-lab5/src/java/simpledb/IntegerAggregator.java`).
  It computes MIN, MAX, SUM, COUNT or AVG of an integer field, per group
  (`IntegerAggregator`).
- **The string aggregator** (`acmdb-lab3/src/java/simpledb/StringAggregator.java`).
  It computes COUNT, per group (`StringAggregator`).

Both aggregators share the module `Groups`, which holds:
- the aggregation operators, `Aggregator.Op`;
- tuples and fields;
- the group key a tuple falls into, which is the single key -1 when there is
  no grouping;
- the output loop of `iterator`.

The model is sequential and uses immutable values only.
- Every operation is a function or method from the old state to a new one.
- The file collaborator is a map from page ids to page bytes, the "disk". It
  is passed in as a parameter.
- The pages that a heap file reports as modified by an insert or a delete are
  also a parameter.

Some behaviour is kept exactly as the Java code has it, even where a stricter
behaviour would be the natural reading:
- A shared request from the exclusive holder adds that holder to the shared
  set as well (`BufferPool.java:44`).
- Releasing the exclusive holder clears only the exclusive role
  (`BufferPool.java:50`). As a result, a transaction that took a page
  exclusively and then shared still holds the page after
  `transactionComplete`. `LockTable.FreeLockReleases` and
  `BufferPool.CompletionReleases` state this.
- `transactionComplete` commits or rolls back a touched page only when the
  page is resident and has *some* exclusive holder, not necessarily the
  completing transaction (`BufferPool.java:229`). Rolling back every touched
  page would be the stricter behaviour. The code rolls back only these
  settled pages, and the model does the same.
- The holders recorded in the wait-for graph may include the requester
  itself. A transaction that holds a page shared together with another
  transaction and asks to upgrade is therefore aborted at once
  (`WaitForGraph.SelfWaitIsCycle`).

## Model

| member | source | states |
|---|---|---|
| LockTable.TryGetLock | acmdb-lab5/src/java/simpledb/BufferPool.java:34-47 | A request is granted exactly when no other transaction holds the page exclusively and, for READ_WRITE, the shared holders are at most the requester. A denied request leaves the lock unchanged. A granted READ_WRITE request leaves the requester the sole exclusive holder with no sharers. A granted READ_ONLY request adds the requester to the sharers, even when it is already the exclusive holder. After any grant the requester holds the page. |
| LockTable.FreeLock | acmdb-lab5/src/java/simpledb/BufferPool.java:49-52 | The exclusive holder loses only its exclusive role and the shared set is untouched. Any other transaction is removed from the shared set. The holdings of every other transaction are unchanged. |
| LockTable.DeniedUnderForeignExclusive | acmdb-lab5/src/java/simpledb/BufferPool.java:35 | While another transaction holds the page exclusively, every request is refused and the lock state stays the same. |
| LockTable.ExclusiveUpgrade | acmdb-lab5/src/java/simpledb/BufferPool.java:36-42 | An exclusive request fails when two or more transactions share the page, or when its one sharer is another transaction. A lone sharer that is the requester is upgraded to exclusive and the shared set is emptied. |
| LockTable.SharedRequestByExclusiveHolder | acmdb-lab5/src/java/simpledb/BufferPool.java:43-46 | A shared request by the exclusive holder is granted. The holder joins the shared set and stays exclusive. |
| LockTable.TryGetLockPreservesWf | acmdb-lab5/src/java/simpledb/BufferPool.java:34-47 | A grant keeps mutual exclusion: when there is an exclusive holder, the shared set holds at most that holder. |
| LockTable.FreeLockPreservesWf | acmdb-lab5/src/java/simpledb/BufferPool.java:49-52 | A release keeps mutual exclusion. |
| LockTable.ExclusiveHolderIsSole | acmdb-lab5/src/java/simpledb/BufferPool.java:34-52 | Under mutual exclusion, a page with an exclusive holder is held by no other transaction. |
| LockTable.FreeLockReleases | acmdb-lab5/src/java/simpledb/BufferPool.java:49-51 | After a release the transaction still holds the page exactly when it was both the exclusive holder and a sharer. |
| WaitForGraph.Holders | acmdb-lab5/src/java/simpledb/BufferPool.java:59-64 | The conflict set is exactly the transactions that hold the page, exclusively or shared. |
| WaitForGraph.UpdateGraph | acmdb-lab5/src/java/simpledb/BufferPool.java:58-66 | The requester's successors become exactly the holders of the contested page. No other transaction's edges change. |
| WaitForGraph.ClearGraph | acmdb-lab5/src/java/simpledb/BufferPool.java:67-69 | Only the requester's entry is removed. Every other entry is kept. |
| WaitForGraph.Dfs | acmdb-lab5/src/java/simpledb/BufferPool.java:74-82 | The search only ever grows the shared visited set. When it reports success it has found a path from the current node to the root. When it reports failure, every node it finished has all its successors visited and none of them is the root. |
| WaitForGraph.FindCycle | acmdb-lab5/src/java/simpledb/BufferPool.java:70-73 | The search reports true exactly when the graph has a path of one or more edges from the root back to itself. |
| WaitForGraph.SelfWaitIsCycle | acmdb-lab5/src/java/simpledb/BufferPool.java:58-66 | A requester that itself holds the contested page gets a self-loop, so a cycle through it is reported at once. |
| PageCache.EvictPage | acmdb-lab5/src/java/simpledb/BufferPool.java:365-377 | Eviction fails, leaving the cache as it was, exactly when every resident page is dirty. Otherwise it removes exactly one page, which is clean, and keeps every other page as it was. |
| PageCache.Fetch | acmdb-lab5/src/java/simpledb/BufferPool.java:161-172 | A hit returns the resident page and changes nothing. A miss below capacity evicts nothing. A miss at capacity evicts exactly one clean page first and fails with "buffer full" exactly when all pages are dirty. The admitted page is the disk's bytes with a fresh before-image. A missing disk page fails with a storage error and a failed fetch leaves the page out. Only the requested page can enter, surviving pages are unchanged, only clean pages leave, and a cache within capacity stays within capacity. When every resident page's before-image is its disk content, that stays true. |
| PageCache.MakeRoom | acmdb-lab5/src/java/simpledb/BufferPool.java:164 | Room is made exactly unless the cache is at capacity with every page dirty. A cache below capacity is left alone. At capacity, success removes exactly one page, which is clean, and a cache at capacity drops below it. The remaining pages are unchanged. |
| PageCache.DiscardPage | acmdb-lab5/src/java/simpledb/BufferPool.java:328-335 | The page is removed whether it is dirty or not. The cache shrinks by one exactly when the page was resident. Every other page stays. |
| PageCache.FlushPage | acmdb-lab5/src/java/simpledb/BufferPool.java:341-351 | A resident page's bytes reach the disk and the page becomes clean, keeping its data and before-image. An absent page changes nothing. No other page or disk entry changes. |
| PageCache.FlushIdempotent | acmdb-lab5/src/java/simpledb/BufferPool.java:341-351 | Flushing the same page twice has the same effect as flushing it once. |
| PageCache.PutModified | acmdb-lab5/src/java/simpledb/BufferPool.java:273-276 | After the update the cache holds its old pages plus every reported page. Pages that were not reported are unchanged. |
| PageCache.PutModifiedLastWins | acmdb-lab5/src/java/simpledb/BufferPool.java:299-304 | For a page id reported more than once, the cache keeps the last copy reported, marked dirty by the transaction. |
| PageCache.PutModifiedKeepsBefore | acmdb-lab5/src/java/simpledb/BufferPool.java:273-276 | When every reported page is resident and carries its resident copy's before-image, the update adds no page and keeps every before-image. |
| PageCache.PutModifiedMarksAll | acmdb-lab5/src/java/simpledb/BufferPool.java:274 | After the update every reported page is resident and dirty by the transaction. |
| BufferPool.NewPool | acmdb-lab5/src/java/simpledb/BufferPool.java:106-110 | A new pool is empty and well-formed, over the given disk, and is within its capacity when that capacity is not negative. Its (empty) cache has every before-image equal to the committed disk content. |
| BufferPool.GetPage | acmdb-lab5/src/java/simpledb/BufferPool.java:141-173 | A refused attempt changes only the page's lock entry, which is created if missing, and the requester's wait-for edges. It reports Aborted exactly when those edges close a cycle through the requester, and Blocked otherwise. A granted attempt installs the new lock, which the requester then holds, clears its edges and records the page as touched. A granted hit returns the resident page and leaves the cache as it was. A granted miss returns the disk's bytes as a clean page whose before-image is those bytes. It fails with "buffer full" exactly on a granted miss in a full, all-dirty cache, and with a storage error only when the disk lacks the page. A failure leaves the page out of the cache, and "buffer full" leaves the cache as it was. Only the requested page can enter the cache, resident pages are never altered and only clean pages are evicted. Well-formedness, the capacity bound and "every before-image is the committed content" are preserved. A miss in a cache below capacity evicts nothing, and a granted miss in a full cache evicts exactly one page. |
| BufferPool.Wait | acmdb-lab5/src/java/simpledb/BufferPool.java:146-155 | The outcome is Aborted exactly when the updated wait-for graph has a cycle through the requester. Otherwise it is Blocked. Only the lock entry and the requester's edges change. |
| BufferPool.Admit | acmdb-lab5/src/java/simpledb/BufferPool.java:156-172 | After a grant, the returned page is the resident copy and the page is recorded as touched. A hit returns the resident page and leaves the cache as it was. A miss returns the disk's bytes as a clean page with those bytes as before-image, fails with "buffer full" exactly when the cache is full and all dirty, and fails with a storage error only when the disk lacks the page. A failure leaves the page out of the cache, and "buffer full" leaves the cache as it was. Only the requested page can enter, eviction is limited to clean pages, and the capacity bound and "every before-image is the committed content" are kept. A miss in a cache below capacity evicts nothing, and a granted miss in a full cache evicts exactly one page. |
| BufferPool.TransactionComplete | acmdb-lab5/src/java/simpledb/BufferPool.java:222-248 | A page is settled when the transaction touched it, it is resident and some transaction holds it exclusively. On commit a settled dirty page is written to disk, marked clean and given a new before-image. On abort a settled page is replaced by its before-image. Every touched page's lock is released and the touched set is dropped. Nothing else changes. |
| BufferPool.CommitForcesDirtyPages | acmdb-lab5/src/java/simpledb/BufferPool.java:229-234 | After commit every settled page keeps its contents and is clean. A dirty one is now on disk and its before-image is the committed content. The disk changes only for pages that were resident and dirty. |
| BufferPool.AbortRestoresBeforeImages | acmdb-lab5/src/java/simpledb/BufferPool.java:235-238 | After abort every settled page is its own before-image, clean, and the disk is unchanged. |
| BufferPool.AbortRestoresCommitted | acmdb-lab5/src/java/simpledb/BufferPool.java:235-238 | When every resident page's before-image is its committed disk content, an abort leaves every settled page clean and holding exactly the committed bytes, with the disk unchanged. |
| BufferPool.CompletionKeepsBeforeCommitted | acmdb-lab5/src/java/simpledb/BufferPool.java:222-248 | Commit and abort both keep every resident page's before-image equal to its disk content. |
| BufferPool.CompletionIsLocal | acmdb-lab5/src/java/simpledb/BufferPool.java:226-247 | Completion keeps the set of resident pages and lock entries. Pages and locks outside the touched set are unchanged. No other transaction's holdings change, and the capacity bound is kept. |
| BufferPool.CompletionReleases | acmdb-lab5/src/java/simpledb/BufferPool.java:243-246 | After completion every touched page keeps a lock entry, and `holdsLock` still answers true for it exactly when the transaction was both that page's exclusive holder and one of its sharers. |
| BufferPool.CompletionPreservesWf | acmdb-lab5/src/java/simpledb/BufferPool.java:222-248 | Completion keeps mutual exclusion on every page and every page stored under its own id. |
| BufferPool.ReleasePage | acmdb-lab5/src/java/simpledb/BufferPool.java:184-192 | The page leaves the transaction's touched set and the transaction's lock on it is released. It still holds the page only in the exclusive-and-shared case. Other transactions, other pages, the cache and the disk are unchanged. |
| BufferPool.HoldsLock | acmdb-lab5/src/java/simpledb/BufferPool.java:206-213 | The answer is true exactly when the transaction is the exclusive holder or a shared holder of the page, that is, exactly when it is in the set a conflicting request waits for. Under mutual exclusion, a holder of a page that has an exclusive holder is that holder. |
| BufferPool.InsertTuple | acmdb-lab5/src/java/simpledb/BufferPool.java:273-276 | The cache update after the heap file's insert: every page it reports as modified becomes resident and dirty by the transaction. This update leaves unreported pages, locks, touched sets and the disk unchanged. |
| BufferPool.DeleteTuple | acmdb-lab5/src/java/simpledb/BufferPool.java:299-304 | The cache update after the heap file's delete is the same as after an insert: every reported page becomes resident and dirty, and this update changes nothing else. |
| BufferPool.TupleUpdateKeepsBeforeCommitted | acmdb-lab5/src/java/simpledb/BufferPool.java:273-276 | When the reported pages are resident pages that keep their before-images, an insert or a delete keeps every before-image equal to the committed disk content, so a later abort restores committed bytes. |
| BufferPool.InsertMayExceedCapacity | acmdb-lab5/src/java/simpledb/BufferPool.java:273-276 | The tuple operations do not evict, so a full pool goes over its capacity when a new page is reported modified. |
| Groups.SameGroupIff | acmdb-lab5/src/java/simpledb/IntegerAggregator.java:70-73 | Two tuples fall into the same group exactly when there is no grouping or their group-by fields are equal. |
| Groups.UngroupedHasOneKey | acmdb-lab5/src/java/simpledb/IntegerAggregator.java:73 | Without grouping there is at most one group. |
| Groups.Emit | acmdb-lab5/src/java/simpledb/IntegerAggregator.java:95-109 | The output has one result per group: every group appears exactly once, in some order, with its value. A result has one field without grouping and two with grouping. |
| IntegerAggregator.New | acmdb-lab5/src/java/simpledb/IntegerAggregator.java:29-35 | The aggregator starts with no groups and keeps its constructor arguments. |
| IntegerAggregator.Initial | acmdb-lab5/src/java/simpledb/IntegerAggregator.java:52-59 | A group's first value b seeds an accumulator of the operator's shape that summarizes the one-value sequence [b]: COUNT 1, AVG (1, b), and MIN, MAX and SUM b. |
| IntegerAggregator.Reduce | acmdb-lab5/src/java/simpledb/IntegerAggregator.java:39-51 | Folding a value in keeps the accumulator in the shape its operator needs. |
| IntegerAggregator.ReduceSummarizes | acmdb-lab5/src/java/simpledb/IntegerAggregator.java:39-51 | Folding b into a summary of vs gives the summary of vs followed by b: the minimum, maximum, sum, count, or the AVG (count, sum) pair. |
| IntegerAggregator.Merge | acmdb-lab5/src/java/simpledb/IntegerAggregator.java:68-81 | Merging a tuple adds its group if needed and changes no other group. Every accumulator keeps the shape its operator needs. |
| IntegerAggregator.MergeSameGroup | acmdb-lab5/src/java/simpledb/IntegerAggregator.java:68-80 | After a non-empty run of tuples of one new group is merged, the group summarizes exactly their values and every other group is as before. |
| IntegerAggregator.UngroupedHasOneGroup | acmdb-lab5/src/java/simpledb/IntegerAggregator.java:70-73 | Without grouping the aggregator has at most one group. |
| IntegerAggregator.TruncDiv | acmdb-lab5/src/java/simpledb/IntegerAggregator.java:101 | The quotient's magnitude is the quotient of the magnitudes. It is never negative when the signs agree and never positive when they differ. |
| IntegerAggregator.TruncDivSpec | acmdb-lab5/src/java/simpledb/IntegerAggregator.java:101 | AVG's division rounds toward zero. The remainder is smaller than the divisor in magnitude and carries the dividend's sign, and the quotient is negative only when the signs differ. |
| IntegerAggregator.ReportedValue | acmdb-lab5/src/java/simpledb/IntegerAggregator.java:96-104 | For any group absent before a run of tuples ts, in which tuples of different groups may interleave, the group exists afterwards exactly when some tuple of ts carries its key. Its reported value is then the count, sum, truncated mean, minimum or maximum of the values of exactly those tuples. |
| IntegerAggregator.MergeAllSummarizes | acmdb-lab5/src/java/simpledb/IntegerAggregator.java:68-81 | After merging ts into an aggregator lacking group k, k exists exactly when some tuple of ts carries it. Its accumulator then summarizes the values of exactly those tuples, in order. |
| IntegerAggregator.ExtendGroup | acmdb-lab5/src/java/simpledb/IntegerAggregator.java:73-79 | One merge into group k: when k's accumulator summarizes the values of fs, and exists exactly when fs is non-empty, merging a tuple of k makes it summarize those values followed by the tuple's value. |
| IntegerAggregator.Final | acmdb-lab5/src/java/simpledb/IntegerAggregator.java:98-104 | For any values the accumulator summarizes, the final value is their count, their sum, their sum divided by their count rounded toward zero, their minimum or their maximum. |
| IntegerAggregator.Iterator | acmdb-lab5/src/java/simpledb/IntegerAggregator.java:91-110 | The output has exactly one tuple per group. Without grouping a tuple is (final value) and there is at most one. With grouping it is (group key, final value). |
| StringAggregator.New | acmdb-lab3/src/java/simpledb/StringAggregator.java:25-32 | Construction succeeds exactly for COUNT and fails with an illegal-argument error otherwise. |
| StringAggregator.Merge | acmdb-lab3/src/java/simpledb/StringAggregator.java:40-50 | Merging raises the tuple's group count by one, starting from 1 for a new group. No other group changes. |
| StringAggregator.MergeAllCounts | acmdb-lab3/src/java/simpledb/StringAggregator.java:44-49 | After merging ts, each group's count is its old count plus the number of tuples of ts with its key. A group exists exactly when it existed before or some tuple carries its key. |
| StringAggregator.SameGroupCountsAll | acmdb-lab3/src/java/simpledb/StringAggregator.java:40-50 | Merging n tuples of one new group gives that group the count n. |
| StringAggregator.CountsDependOnKeysOnly | acmdb-lab3/src/java/simpledb/StringAggregator.java:42-49 | Two sequences whose group keys agree as multisets give the same counts, whatever their aggregate fields hold and in whatever order they arrive. |
| StringAggregator.UngroupedCountsAll | acmdb-lab3/src/java/simpledb/StringAggregator.java:42-43 | Without grouping, merging n > 0 tuples gives the single total n. |
| StringAggregator.Iterator | acmdb-lab3/src/java/simpledb/StringAggregator.java:60-73 | The output has exactly one tuple per group. Without grouping a tuple is (count) and there is at most one. With grouping it is (group key, count). |

## Left out

- Concurrency and the busy-poll loop of `getPage`:
  - `synchronized` blocks and concurrent maps are not modelled. The model is
    single-threaded.
  - `getPage` is one lock attempt that returns Blocked where the Java code
    would try again.
- The catalog, `readPage` and `writePage`:
  - The file collaborator is an abstract disk map. `PageCache.ReadPage`
    stands in for `readPage`: it looks the page up in that map and a missing
    page fails with a storage error.
  - The pages that `HeapFile.insertTuple`/`deleteTuple` return are given as
    a parameter, because HeapFile and HeapPage are not part of this model.
- `BufferPool.InsertTuple` and `BufferPool.DeleteTuple` model only the cache
  update that follows the heap file's call (`BufferPool.java:273-276` and
  `:299-304`). The heap file's own work happens before that update and is
  not part of these members: its `getPage(..., READ_WRITE)` calls take locks,
  record touched pages and may evict, and an insert that finds no free slot
  writes a new empty page straight to disk with `writePage`.
- `BufferPool.TupleUpdateKeepsBeforeCommitted` takes as a premise that every
  page a heap file reports is a resident page that kept its before-image.
  HeapFile obtains its pages through `getPage`, then modifies and returns
  the cached object itself (`acmdb-lab4/src/java/simpledb/HeapFile.java:120-150`).
  The model passes pages by value and does not model HeapFile, so it cannot
  derive this premise. For the same reason, a caller that changes a page
  object outside `insertTuple`/`deleteTuple` is not modelled.
- `IntegerAggregator.Reduce`: its own contract states only the accumulator's
  shape. What the folded value means is stated by
  `IntegerAggregator.ReduceSummarizes`.
- `getBeforeImage` is modelled as a clean page whose data and before-image
  are the old before-image, because HeapPage is not part of this model.
- The static page-size setters, `flushAllPages` and the empty `flushPages`
  are left out, since `flushAllPages` breaks NO-STEAL by its own
  documentation.
- Transaction ids are compared by value. The Java code compares them by
  reference in `tryGetLock` and `holdsLock` and with `equals` in `freeLock`.
  The two agree when every transaction has one id object.
- The null dereferences of the Java code become preconditions:
  - `BufferPool.ReleasePage`: requires the lock entry and the touched set to
    exist.
  - `BufferPool.HoldsLock`: requires the lock entry to exist.
  - `BufferPool.TransactionComplete`: requires every touched page to have a
    lock entry. The source throws a NullPointerException in the cases these
    requires exclude.
- Tuples that are not mergeable are excluded by preconditions:
  - `IntegerAggregator.Merge` requires that the aggregate field exists and
    holds an integer.
  - Both aggregators require that the group-by field exists.
  - The Java code throws on these tuples.
- Java's 32-bit `int` overflow in SUM, COUNT and the AVG pair is not
  modelled. The model uses unbounded integers, so it agrees with the source
  only while the values stay in range.
- The `(IntField)` cast of a group key in the string aggregator's `iterator`
  is not modelled. Keys are kept as opaque field values, so a string group
  key is reported where the Java code would throw a ClassCastException.
- Operators other than MIN, MAX, SUM, AVG and COUNT are not modelled. The
  integer aggregator's `reduce` answers -1 for them. Aggregator.java is not
  part of this model.
- HashMap iteration order: `iterator` emits the groups in an order it
  chooses, and the contract does not fix that order.
- IntHistogram, Insert, Delete and SingleChildOperator are outside the
  modelled core.

=== FILE: BufferPool.dfy ===
/** The buffer pool manager of BufferPool.java, as a sequential state
    machine: the lock table, the wait-for graph, the page cache, the pages
    each transaction touched, and the disk behind the cache. Each public
    operation is one transition from a pool to a pool. */
module BufferPool {
  import opened Wrappers
  import opened Ids
  import opened LockTable
  import opened PageCache
  import WaitForGraph

  /** The whole pool. `capacity` is `npages`; `touched` is the per-transaction
      set of pages obtained through `getPage` (the field `dirty`). */
  datatype Pool = Pool(
    capacity: int,
    pages: Cache,
    locks: map<PageId, LockInfo>,
    touched: map<Tid, set<PageId>>,
    edges: WaitForGraph.Graph,
    disk: Disk)

  /** Pool invariant: pages keyed by their ids, mutual exclusion on every
      page lock, and a lock entry for every page a transaction touched. */
  predicate Wf(p: Pool)
  {
    && Keyed(p.pages)
    && (forall pid :: pid in p.locks ==> LockTable.Wf(p.locks[pid]))
    && (forall t :: t in p.touched ==> p.touched[t] <= p.locks.Keys)
  }

  predicate WithinCapacity(p: Pool)
  {
    |p.pages| <= p.capacity
  }

  /** Every resident page's before-image is the committed content of that
      page on disk: what an abort must bring back. */
  predicate BeforeCommitted(p: Pool)
  {
    BeforeOnDisk(p.pages, p.disk)
  }

  /** The lock of a page, created unlocked on first use. */
  function LockOf(p: Pool, pid: PageId): LockInfo
  {
    if pid in p.locks then p.locks[pid] else Unlocked
  }

  /** The pages tid touched (`dirty.getOrDefault(tid, {})`). */
  function Touched(p: Pool, tid: Tid): set<PageId>
  {
    if tid in p.touched then p.touched[tid] else {}
  }

  /** `BufferPool(numPages)`: an empty pool over the given disk. */
  function NewPool(numPages: int, disk: Disk): (p: Pool)
    ensures Wf(p) && p.capacity == numPages && p.disk == disk
    ensures p.pages == map[] && p.locks == map[] && p.touched == map[] && p.edges == map[]
    ensures numPages >= 0 ==> WithinCapacity(p)
    ensures BeforeCommitted(p)
  {
    Pool(numPages, map[], map[], map[], map[], disk)
  }

  /** The outcome of one `getPage` attempt: the page, a refused lock request
      (the caller polls again), a deadlock (TransactionAbortedException), or
      a failure of the cache layer. */
  datatype Outcome = Granted(page: Page) | Blocked | Aborted | Failed(error: Error)

  /** `getPage` with a single lock acquisition attempt. A refused attempt
      records tid's wait-for edges and reports Aborted when they close a
      cycle through tid, Blocked otherwise. A granted one clears tid's edges,
      records pid as touched by tid and fetches the page through the cache. */
  method GetPage(p: Pool, tid: Tid, pid: PageId, perm: Perm) returns (out: Outcome, p': Pool)
    ensures Wf(p) ==> Wf(p')
    ensures WithinCapacity(p) ==> WithinCapacity(p')
    // a refused request changes neither the lock nor the cache
    ensures var r := TryGetLock(LockOf(p, pid), tid, perm);
      && (out.Blocked? || out.Aborted? <==> !r.granted)
      && (!r.granted ==>
            && p' == p.(locks := p.locks[pid := r.lock],
                        edges := WaitForGraph.UpdateGraph(p.edges, tid, r.lock))
            && (out.Aborted? <==> WaitForGraph.OnCycle(p'.edges, tid)))
    // a granted request holds the lock and records the page as touched
    ensures var r := TryGetLock(LockOf(p, pid), tid, perm);
      r.granted ==>
        && p'.locks == p.locks[pid := r.lock]
        && Holds(p'.locks[pid], tid)
        && p'.edges == WaitForGraph.ClearGraph(p.edges, tid)
        && p'.touched == p.touched[tid := Touched(p, tid) + {pid}]
        && p'.capacity == p.capacity && p'.disk == p.disk
    ensures out.Granted? ==> pid in p'.pages && out.page == p'.pages[pid] && HoldsLock(p', tid, pid)
    // a hit returns the resident page; a miss returns the disk's bytes as a
    // clean page whose before-image is those bytes
    ensures out.Granted? && pid !in p.pages ==>
      pid in p.disk && out.page == Page(pid, p.disk[pid], None, p.disk[pid])
    ensures TryGetLock(LockOf(p, pid), tid, perm).granted && pid in p.pages ==>
      out == Granted(p.pages[pid]) && p'.pages == p.pages
    ensures out == Failed(StorageIO) ==> pid !in p.disk
    // a failed fetch leaves pid out, and "buffer full" leaves the cache alone
    ensures out.Failed? ==> pid !in p'.pages
    ensures out == Failed(BufferFull) ==> p'.pages == p.pages
    // a miss evicts nothing below capacity and exactly one page at capacity
    ensures |p.pages| < p.capacity ==> p.pages.Keys <= p'.pages.Keys
    ensures out.Granted? && pid !in p.pages && |p.pages| >= p.capacity ==> |p'.pages| == |p.pages|
    // the cache: only pid can enter, resident pages are kept as they are,
    // only clean ones are evicted
    ensures p'.pages.Keys <= p.pages.Keys + {pid}
    ensures forall q :: q in p.pages && q in p'.pages ==> p'.pages[q] == p.pages[q]
    ensures forall q :: q in p.pages && q !in p'.pages ==> IsClean(p.pages[q])
    ensures out == Failed(BufferFull) <==>
      && TryGetLock(LockOf(p, pid), tid, perm).granted
      && pid !in p.pages && |p.pages| >= p.capacity && AllDirty(p.pages)
    ensures BeforeCommitted(p) ==> BeforeCommitted(p')
  {
    var lock := LockOf(p, pid);
    var reply := TryGetLock(lock, tid, perm);
    if !reply.granted {
      out, p' := Wait(p, tid, pid);
    } else {
      if Wf(p) {
        TryGetLockPreservesWf(lock, tid, perm);
      }
      out, p' := Admit(p, tid, pid, reply.lock);
    }
  }

  /** The refused half of `getPage`: the lock entry exists, tid's wait-for
      edges are the page's holders, and a cycle through tid aborts it. */
  method Wait(p: Pool, tid: Tid, pid: PageId) returns (out: Outcome, p': Pool)
    ensures out.Blocked? || out.Aborted?
    ensures out.Aborted? <==> WaitForGraph.OnCycle(p'.edges, tid)
    ensures p' == p.(locks := p.locks[pid := LockOf(p, pid)],
                     edges := WaitForGraph.UpdateGraph(p.edges, tid, LockOf(p, pid)))
    ensures Wf(p) ==> Wf(p')
    ensures BeforeCommitted(p) ==> BeforeCommitted(p')
  {
    var lock := LockOf(p, pid);
    var edges := WaitForGraph.UpdateGraph(p.edges, tid, lock);
    var cycle := WaitForGraph.FindCycle(edges, tid);
    p' := p.(locks := p.locks[pid := lock], edges := edges);
    out := if cycle then Aborted else Blocked;
  }

  /** The granted half of `getPage`: install the new lock state, clear
      tid's wait-for edges, record pid as touched, and fetch the page. */
  method Admit(p: Pool, tid: Tid, pid: PageId, lock: LockInfo) returns (out: Outcome, p': Pool)
    ensures out.Granted? || out.Failed?
    ensures p'.capacity == p.capacity && p'.disk == p.disk
    ensures p'.locks == p.locks[pid := lock]
    ensures p'.edges == WaitForGraph.ClearGraph(p.edges, tid)
    ensures p'.touched == p.touched[tid := Touched(p, tid) + {pid}]
    ensures out.Granted? ==> pid in p'.pages && out.page == p'.pages[pid]
    ensures out.Granted? && pid !in p.pages ==>
      pid in p.disk && out.page == Page(pid, p.disk[pid], None, p.disk[pid])
    ensures pid in p.pages ==> out == Granted(p.pages[pid]) && p'.pages == p.pages
    ensures out == Failed(StorageIO) ==> pid !in p.disk
    ensures out.Failed? ==> pid !in p'.pages
    ensures out == Failed(BufferFull) ==> p'.pages == p.pages
    // a miss evicts nothing below capacity and exactly one page at capacity
    ensures |p.pages| < p.capacity ==> p.pages.Keys <= p'.pages.Keys
    ensures out.Granted? && pid !in p.pages && |p.pages| >= p.capacity ==> |p'.pages| == |p.pages|
    ensures p'.pages.Keys <= p.pages.Keys + {pid}
    ensures forall q :: q in p.pages && q in p'.pages ==> p'.pages[q] == p.pages[q]
    ensures forall q :: q in p.pages && q !in p'.pages ==> IsClean(p.pages[q])
    ensures out == Failed(BufferFull) <==> pid !in p.pages && |p.pages| >= p.capacity && AllDirty(p.pages)
    ensures WithinCapacity(p) ==> WithinCapacity(p')
    ensures Wf(p) && LockTable.Wf(lock) ==> Wf(p')
    ensures BeforeCommitted(p) ==> BeforeCommitted(p')
  {
    var r, pages := Fetch(p.pages, p.capacity, p.disk, pid);
    p' := p.(pages := pages,
             locks := p.locks[pid := lock],
             edges := WaitForGraph.ClearGraph(p.edges, tid),
             touched := p.touched[tid := Touched(p, tid) + {pid}]);
    out := if r.Success? then Granted(r.value) else Failed(r.error);
    if Wf(p) && LockTable.Wf(lock) && Keyed(pages) {
      GrantKeepsWf(p, tid, pid, lock, pages);
    }
  }

  /** Installing a well-formed lock on pid, recording pid as touched by tid
      and replacing the cache by a keyed one keeps the pool invariant. */
  lemma GrantKeepsWf(p: Pool, tid: Tid, pid: PageId, lock: LockInfo, pages: Cache)
    requires Wf(p) && LockTable.Wf(lock) && Keyed(pages)
    ensures Wf(p.(pages := pages,
                  locks := p.locks[pid := lock],
                  edges := WaitForGraph.ClearGraph(p.edges, tid),
                  touched := p.touched[tid := Touched(p, tid) + {pid}]))
  {
  }

  /** The pages `transactionComplete` commits or rolls back: touched by tid,
      resident, and held exclusively by some transaction (the test is for
      any exclusive holder, not for tid itself). */
  predicate Settles(p: Pool, tid: Tid, q: PageId)
  {
    q in Touched(p, tid) && q in p.pages && q in p.locks && p.locks[q].exclusive.Some?
  }

  /** A settled page whose commit writes it to disk: it is dirty. */
  predicate Flushes(p: Pool, tid: Tid, commit: bool, q: PageId)
  {
    commit && Settles(p, tid, q) && !IsClean(p.pages[q])
  }

  /** The page q becomes when tid completes. */
  function Settled(p: Pool, tid: Tid, commit: bool, q: PageId): Page
    requires q in p.pages
  {
    var pg := p.pages[q];
    if !Settles(p, tid, q) then pg
    else if !commit then BeforeImage(pg)
    else if IsClean(pg) then pg
    else SetBeforeImage(MarkClean(pg))
  }

  /** The locks after tid completes on the pages in done. */
  ghost predicate LocksCompleted(p: Pool, tid: Tid, done: set<PageId>, locks: map<PageId, LockInfo>)
  {
    && locks.Keys == p.locks.Keys
    && (forall q :: q in p.locks ==>
          locks[q] == (if q in done then FreeLock(p.locks[q], tid) else p.locks[q]))
  }

  /** The cache after tid completes on the pages in done. */
  ghost predicate PagesCompleted(p: Pool, tid: Tid, commit: bool, done: set<PageId>, pages: Cache)
  {
    && pages.Keys == p.pages.Keys
    && (forall q :: q in p.pages ==>
          pages[q] == (if q in done then Settled(p, tid, commit, q) else p.pages[q]))
  }

  /** The disk after tid completes on the pages in done: every page that
      flushes has been written. */
  ghost predicate DiskCompleted(p: Pool, tid: Tid, commit: bool, done: set<PageId>, disk: Disk)
  {
    && (forall q :: q in disk <==> q in p.disk || (q in done && Flushes(p, tid, commit, q)))
    && (forall q :: q in disk ==>
          disk[q] == (if q in done && Flushes(p, tid, commit, q) then p.pages[q].data else p.disk[q]))
  }

  /** The state after tid completes, page by page, once the pages in done
      have been processed. */
  ghost predicate CompletedOn(p: Pool, tid: Tid, commit: bool, done: set<PageId>,
                              pages: Cache, locks: map<PageId, LockInfo>, disk: Disk)
  {
    && LocksCompleted(p, tid, done, locks)
    && PagesCompleted(p, tid, commit, done, pages)
    && DiskCompleted(p, tid, commit, done, disk)
  }

  /** p' is p after `transactionComplete(tid, commit)`. */
  ghost predicate Completed(p: Pool, tid: Tid, commit: bool, p': Pool)
  {
    && p' == p.(pages := p'.pages, locks := p'.locks, disk := p'.disk, touched := p.touched - {tid})
    && CompletedOn(p, tid, commit, Touched(p, tid), p'.pages, p'.locks, p'.disk)
  }

  /** One iteration of the loop of `transactionComplete`, for page pid. */
  function CompleteOne(pages: Cache, locks: map<PageId, LockInfo>, disk: Disk,
                       tid: Tid, commit: bool, pid: PageId): (Cache, map<PageId, LockInfo>, Disk)
    requires pid in locks
  {
    var (pages1, disk1) :=
      if pid in pages && locks[pid].exclusive.Some? then
        if commit then
          if !IsClean(pages[pid]) then
            var (c, d) := FlushPage(pages, disk, pid);
            (c[pid := SetBeforeImage(c[pid])], d)
          else (pages, disk)
        else (pages[pid := BeforeImage(pages[pid])], disk)
      else (pages, disk);
    (pages1, locks[pid := FreeLock(locks[pid], tid)], disk1)
  }

  /** Processing one more touched page extends the completed part by it. */
  lemma CompleteOneStep(p: Pool, tid: Tid, commit: bool, done: set<PageId>,
                        pages: Cache, locks: map<PageId, LockInfo>, disk: Disk, pid: PageId)
    requires pid in Touched(p, tid) && pid !in done && pid in p.locks
    requires CompletedOn(p, tid, commit, done, pages, locks, disk)
    ensures var (pages', locks', disk') := CompleteOne(pages, locks, disk, tid, commit, pid);
      CompletedOn(p, tid, commit, done + {pid}, pages', locks', disk')
  {
    var (pages', locks', disk') := CompleteOne(pages, locks, disk, tid, commit, pid);
    assert locks[pid] == p.locks[pid];
    assert LocksCompleted(p, tid, done + {pid}, locks');
    if pid in pages {
      assert pages[pid] == p.pages[pid];
      StepPages(p, tid, commit, done, pages, locks, disk, pid);
      StepDisk(p, tid, commit, done, pages, locks, disk, pid);
    } else {
      assert pages' == pages && disk' == disk;
      assert !Flushes(p, tid, commit, pid) && !Settles(p, tid, pid);
    }
  }

  lemma StepPages(p: Pool, tid: Tid, commit: bool, done: set<PageId>,
                  pages: Cache, locks: map<PageId, LockInfo>, disk: Disk, pid: PageId)
    requires pid in Touched(p, tid) && pid !in done && pid in p.locks && pid in p.pages
    requires locks.Keys == p.locks.Keys && locks[pid] == p.locks[pid]
    requires PagesCompleted(p, tid, commit, done, pages)
    ensures PagesCompleted(p, tid, commit, done + {pid}, CompleteOne(pages, locks, disk, tid, commit, pid).0)
  {
    var pages' := CompleteOne(pages, locks, disk, tid, commit, pid).0;
    assert pages' == pages[pid := Settled(p, tid, commit, pid)];
  }

  lemma StepDisk(p: Pool, tid: Tid, commit: bool, done: set<PageId>,
                 pages: Cache, locks: map<PageId, LockInfo>, disk: Disk, pid: PageId)
    requires pid in Touched(p, tid) && pid !in done && pid in p.locks && pid in p.pages
    requires locks.Keys == p.locks.Keys && locks[pid] == p.locks[pid]
    requires pages.Keys == p.pages.Keys && pages[pid] == p.pages[pid]
    requires DiskCompleted(p, tid, commit, done, disk)
    ensures DiskCompleted(p, tid, commit, done + {pid}, CompleteOne(pages, locks, disk, tid, commit, pid).2)
  {
    var disk' := CompleteOne(pages, locks, disk, tid, commit, pid).2;
    if Flushes(p, tid, commit, pid) {
      assert disk' == disk[pid := p.pages[pid].data];
    } else {
      assert disk' == disk;
    }
  }

  /** `transactionComplete(tid, commit)`: forget tid's touched set; for each
      page in it, commit (force a dirty page to disk, mark it clean and make
      its contents the before-image) or abort (put the before-image back in
      the cache) when the page settles, then release tid's lock on it. */
  method TransactionComplete(p: Pool, tid: Tid, commit: bool) returns (p': Pool)
    requires Touched(p, tid) <= p.locks.Keys
    ensures Completed(p, tid, commit, p')
    ensures tid !in p'.touched
  {
    var ts := Touched(p, tid);
    var rest := ts;
    var pages := p.pages;
    var locks := p.locks;
    var disk := p.disk;
    while rest != {}
      invariant rest <= ts
      invariant CompletedOn(p, tid, commit, ts - rest, pages, locks, disk)
      decreases rest
    {
      var pid :| pid in rest;
      ghost var done := ts - rest;
      CompleteOneStep(p, tid, commit, done, pages, locks, disk, pid);
      var next := CompleteOne(pages, locks, disk, tid, commit, pid);
      pages, locks, disk := next.0, next.1, next.2;
      rest := rest - {pid};
      assert ts - rest == done + {pid};
    }
    p' := p.(pages := pages, locks := locks, disk := disk, touched := p.touched - {tid});
  }

  /** Commit (FORCE): every settled page keeps its contents and ends clean;
      a dirty one is written to disk and its contents become its
      before-image; a clean one is left as it was. Nothing else reaches the disk. */
  lemma CommitForcesDirtyPages(p: Pool, tid: Tid, p': Pool)
    requires Completed(p, tid, true, p')
    ensures forall q :: Settles(p, tid, q) ==>
      && q in p'.pages && p'.pages[q].data == p.pages[q].data && IsClean(p'.pages[q])
      && (IsClean(p.pages[q]) ==> p'.pages[q] == p.pages[q])
      && (!IsClean(p.pages[q]) ==> q in p'.disk && p'.disk[q] == p.pages[q].data
                                   && p'.pages[q].before == p.pages[q].data)
    ensures forall q :: q in p'.disk && (q !in p.pages || IsClean(p.pages[q])) ==>
      q in p.disk && p'.disk[q] == p.disk[q]
  {
    forall q | Settles(p, tid, q)
      ensures p'.pages[q] == Settled(p, tid, true, q)
    {
    }
  }

  /** Abort: every settled page is replaced by its before-image, clean, and
      the disk is untouched. */
  lemma AbortRestoresBeforeImages(p: Pool, tid: Tid, p': Pool)
    requires Completed(p, tid, false, p')
    ensures forall q :: Settles(p, tid, q) ==>
      q in p'.pages && p'.pages[q] == BeforeImage(p.pages[q])
      && p'.pages[q].data == p.pages[q].before && IsClean(p'.pages[q])
    ensures p'.disk == p.disk
  {
    forall q | Settles(p, tid, q)
      ensures p'.pages[q] == Settled(p, tid, false, q)
    {
    }
  }

  /** Completion touches nothing outside tid's touched pages: other pages
      keep their contents and locks, and on every page the holdings of the
      other transactions are as before. */
  lemma CompletionIsLocal(p: Pool, tid: Tid, commit: bool, p': Pool)
    requires Completed(p, tid, commit, p')
    ensures p'.pages.Keys == p.pages.Keys && p'.locks.Keys == p.locks.Keys
    ensures forall q :: q in p.pages && q !in Touched(p, tid) ==> p'.pages[q] == p.pages[q]
    ensures forall q :: q in p.locks && q !in Touched(p, tid) ==> p'.locks[q] == p.locks[q]
    ensures forall q, t :: q in p.locks && t != tid ==> (Holds(p'.locks[q], t) <==> Holds(p.locks[q], t))
    ensures WithinCapacity(p) ==> WithinCapacity(p')
  {
  }

  /** Completion releases tid's locks on its touched pages, except that a
      transaction that was both exclusive and shared holder keeps its shared
      hold (release clears the exclusive role only). */
  lemma CompletionReleases(p: Pool, tid: Tid, commit: bool, p': Pool)
    requires Completed(p, tid, commit, p')
    ensures forall q :: q in Touched(p, tid) && q in p.locks ==>
      q in p'.locks &&
      (HoldsLock(p', tid, q) <==> p.locks[q].exclusive == Some(tid) && tid in p.locks[q].shared)
  {
    forall q | q in Touched(p, tid) && q in p.locks
      ensures Holds(p'.locks[q], tid) <==> p.locks[q].exclusive == Some(tid) && tid in p.locks[q].shared
    {
      FreeLockReleases(p.locks[q], tid);
    }
  }

  /** Completion keeps every resident before-image equal to the committed
      bytes on disk: a commit writes the page and makes its content the
      before-image, an abort puts the before-image back. */
  lemma CompletionKeepsBeforeCommitted(p: Pool, tid: Tid, commit: bool, p': Pool)
    requires BeforeCommitted(p) && Completed(p, tid, commit, p')
    ensures BeforeCommitted(p')
  {
    forall q | q in p'.pages
      ensures q in p'.disk && p'.pages[q].before == p'.disk[q]
    {
      assert q in p.pages && q in p.disk;
      if q in Touched(p, tid) {
        assert p'.pages[q] == Settled(p, tid, commit, q);
      }
    }
  }

  /** Abort atomicity: after an abort every settled page holds the bytes
      last committed to disk again, and the disk is untouched. */
  lemma AbortRestoresCommitted(p: Pool, tid: Tid, p': Pool)
    requires BeforeCommitted(p) && Completed(p, tid, false, p')
    ensures forall q :: Settles(p, tid, q) ==>
      q in p'.pages && q in p.disk && p'.pages[q].data == p.disk[q] && IsClean(p'.pages[q])
    ensures p'.disk == p.disk && BeforeCommitted(p')
  {
    AbortRestoresBeforeImages(p, tid, p');
    CompletionKeepsBeforeCommitted(p, tid, false, p');
  }

  /** The tuple operations keep the committed before-images, provided the
      file collaborator reports modified copies of resident pages that keep
      their before-images (HeapFile modifies the page object it obtained
      through `getPage`). */
  lemma TupleUpdateKeepsBeforeCommitted(p: Pool, tid: Tid, modified: seq<Page>)
    requires BeforeCommitted(p)
    requires forall i :: 0 <= i < |modified| ==>
      modified[i].id in p.pages && modified[i].before == p.pages[modified[i].id].before
    ensures BeforeCommitted(InsertTuple(p, tid, modified))
    ensures BeforeCommitted(DeleteTuple(p, tid, modified))
  {
    PutModifiedKeepsBefore(p.pages, modified, tid);
  }

  /** Completion keeps the pool invariant. */
  lemma CompletionPreservesWf(p: Pool, tid: Tid, commit: bool, p': Pool)
    requires Wf(p) && Completed(p, tid, commit, p')
    ensures Wf(p')
  {
    forall q | q in p'.locks
      ensures LockTable.Wf(p'.locks[q])
    {
      FreeLockPreservesWf(p.locks[q], tid);
    }
    forall q | q in p'.pages
      ensures p'.pages[q].id == q
    {
      assert p'.pages[q] == Settled(p, tid, commit, q);
    }
  }

  /** `releasePage`: tid gives up its lock on pid and forgets having touched
      it; no other transaction's holdings and no other page change. */
  function ReleasePage(p: Pool, tid: Tid, pid: PageId): (p': Pool)
    requires pid in p.locks && tid in p.touched
    ensures p'.locks.Keys == p.locks.Keys && p'.touched.Keys == p.touched.Keys
    ensures pid !in p'.touched[tid] && p'.touched[tid] == p.touched[tid] - {pid}
    ensures forall t :: t != tid && t in p.touched ==> p'.touched[t] == p.touched[t]
    ensures forall q :: q in p.locks && q != pid ==> p'.locks[q] == p.locks[q]
    ensures forall t :: t != tid ==> (Holds(p'.locks[pid], t) <==> Holds(p.locks[pid], t))
    ensures !Holds(p'.locks[pid], tid) <==> !(p.locks[pid].exclusive == Some(tid) && tid in p.locks[pid].shared)
    ensures p'.pages == p.pages && p'.disk == p.disk && p'.edges == p.edges
    ensures Wf(p) ==> Wf(p')
    ensures BeforeCommitted(p) ==> BeforeCommitted(p')
  {
    FreeLockReleases(p.locks[pid], tid);
    assert LockTable.Wf(p.locks[pid]) ==> LockTable.Wf(FreeLock(p.locks[pid], tid)) by {
      if LockTable.Wf(p.locks[pid]) {
        FreeLockPreservesWf(p.locks[pid], tid);
      }
    }
    p.(locks := p.locks[pid := FreeLock(p.locks[pid], tid)],
       touched := p.touched[tid := p.touched[tid] - {pid}])
  }

  /** `holdsLock`: tid holds pid exactly when it is among the holders a
      blocked request on pid would wait for; under mutual exclusion a page
      with an exclusive holder is held by that holder only. */
  function HoldsLock(p: Pool, tid: Tid, pid: PageId): (r: bool)
    requires pid in p.locks
    ensures r <==> p.locks[pid].exclusive == Some(tid) || tid in p.locks[pid].shared
    ensures r <==> tid in WaitForGraph.Holders(p.locks[pid])
    ensures r && Wf(p) && p.locks[pid].exclusive.Some? ==> tid == p.locks[pid].exclusive.value
  {
    var l := p.locks[pid];
    assert Wf(p) && Holds(l, tid) && l.exclusive.Some? ==> tid == l.exclusive.value by {
      if Wf(p) && Holds(l, tid) && l.exclusive.Some? {
        ExclusiveHolderIsSole(l, tid);
      }
    }
    Holds(p.locks[pid], tid)
  }

  /** `insertTuple`: the pages the file collaborator modified are marked
      dirty by tid and put in the cache, without eviction. */
  function InsertTuple(p: Pool, tid: Tid, modified: seq<Page>): (p': Pool)
    ensures p'.pages.Keys == p.pages.Keys + IdsOf(modified)
    ensures forall i :: 0 <= i < |modified| ==> p'.pages[modified[i].id].dirtyBy == Some(tid)
    ensures forall q :: q in p.pages && q !in IdsOf(modified) ==> p'.pages[q] == p.pages[q]
    ensures p'.locks == p.locks && p'.touched == p.touched && p'.disk == p.disk
    ensures Wf(p) ==> Wf(p')
  {
    PutModifiedMarksAll(p.pages, modified, tid);
    p.(pages := PutModified(p.pages, modified, tid))
  }

  /** `deleteTuple`: the same cache update as `insertTuple`, for the pages
      the file collaborator modified while deleting. */
  function DeleteTuple(p: Pool, tid: Tid, modified: seq<Page>): (p': Pool)
    ensures p'.pages.Keys == p.pages.Keys + IdsOf(modified)
    ensures forall i :: 0 <= i < |modified| ==> p'.pages[modified[i].id].dirtyBy == Some(tid)
    ensures forall q :: q in p.pages && q !in IdsOf(modified) ==> p'.pages[q] == p.pages[q]
    ensures p'.locks == p.locks && p'.touched == p.touched && p'.disk == p.disk
    ensures Wf(p) ==> Wf(p')
  {
    InsertTuple(p, tid, modified)
  }

  /** Unlike `getPage`, the tuple operations do not evict: a pool at
      capacity grows past it when a new page is reported modified. */
  lemma InsertMayExceedCapacity(p: Pool, tid: Tid, pg: Page)
    requires WithinCapacity(p) && |p.pages| == p.capacity && pg.id !in p.pages
    ensures !WithinCapacity(InsertTuple(p, tid, [pg]))
  {
    var p' := InsertTuple(p, tid, [pg]);
    assert p'.pages.Keys == p.pages.Keys + {pg.id};
  }
}

=== FILE: Groups.dfy ===
/** What the two aggregators share: the operators, field values, tuples,
    the group key a tuple falls into, and the one-result-per-group output
    of `iterator`. */
module Groups {

  /** `Aggregator.NO_GROUPING`: the group-by index meaning "no grouping". */
  const NoGrouping: int := -1

  /** `Aggregator.Op`: the aggregation operators both aggregators are
      constructed with. */
  datatype AggOp = Min | Max | Sum | Avg | Count

  datatype Field = IntField(value: int) | StringField(text: string)

  datatype FieldType = IntType | StringType

  datatype Tuple = Tuple(fields: seq<Field>)

  /** The key of a group: the group-by field's value, or the single key
      used without grouping (the boxed integer -1 in the Java map). */
  datatype GroupKey = Ungrouped | Group(field: Field)

  /** The tuple can be grouped: without grouping, or with a group-by index
      inside the tuple (`getField` fails otherwise). */
  predicate Groupable(gbfield: int, tup: Tuple)
  {
    gbfield == NoGrouping || 0 <= gbfield < |tup.fields|
  }

  /** The group a tuple is merged into. */
  function KeyOf(gbfield: int, tup: Tuple): (k: GroupKey)
    requires Groupable(gbfield, tup)
    ensures k.Ungrouped? <==> gbfield == NoGrouping
    ensures k.Group? ==> k.field == tup.fields[gbfield]
  {
    if gbfield == NoGrouping then Ungrouped else Group(tup.fields[gbfield])
  }

  /** Two tuples fall into the same group exactly when there is no
      grouping or their group-by fields are equal. */
  lemma SameGroupIff(gbfield: int, t1: Tuple, t2: Tuple)
    requires Groupable(gbfield, t1) && Groupable(gbfield, t2)
    ensures KeyOf(gbfield, t1) == KeyOf(gbfield, t2) <==>
      gbfield == NoGrouping || t1.fields[gbfield] == t2.fields[gbfield]
  {
  }

  /** Every key has the shape the group-by setting gives it. */
  predicate KeysShaped(gbfield: int, keys: set<GroupKey>)
  {
    forall k :: k in keys ==> (k.Ungrouped? <==> gbfield == NoGrouping)
  }

  /** Without grouping there is at most one key. */
  lemma {:induction false} UngroupedHasOneKey(keys: set<GroupKey>)
    requires KeysShaped(NoGrouping, keys)
    ensures |keys| <= 1
  {
    assert keys <= {Ungrouped};
    if Ungrouped in keys {
      assert keys == {Ungrouped};
    } else {
      assert keys == {};
    }
  }

  /** The result tuple of one group: (value) without grouping, (key, value) with it. */
  function ResultTuple(grouped: bool, k: GroupKey, v: int): (t: Tuple)
    requires grouped ==> k.Group?
    ensures |t.fields| == (if grouped then 2 else 1)
    ensures t.fields[|t.fields| - 1] == IntField(v)
    ensures grouped ==> t.fields[0] == k.field
  {
    if grouped then Tuple([k.field, IntField(v)]) else Tuple([IntField(v)])
  }

  /** The loop of `iterator`: visit the groups in some order and emit one
      result tuple for each. `order` is the visiting order. */
  method Emit(groups: map<GroupKey, int>, grouped: bool) returns (out: seq<Tuple>, ghost order: seq<GroupKey>)
    requires grouped ==> forall k :: k in groups ==> k.Group?
    ensures |out| == |groups|
    ensures forall i :: 0 <= i < |out| ==> |out[i].fields| == (if grouped then 2 else 1)
    ensures |order| == |groups|
    ensures forall i :: 0 <= i < |order| ==> order[i] in groups
    ensures forall i, j :: 0 <= i < j < |order| ==> order[i] != order[j]
    ensures forall k :: k in groups ==> k in order
    ensures forall i :: 0 <= i < |out| ==> out[i] == ResultTuple(grouped, order[i], groups[order[i]])
  {
    out := [];
    order := [];
    var rest := groups.Keys;
    while rest != {}
      invariant rest <= groups.Keys
      invariant |out| == |order| && |order| + |rest| == |groups|
      invariant forall i :: 0 <= i < |order| ==> order[i] in groups && order[i] !in rest
      invariant forall i, j :: 0 <= i < j < |order| ==> order[i] != order[j]
      invariant forall k :: k in groups && k !in rest ==> k in order
      invariant forall i :: 0 <= i < |out| ==> out[i] == ResultTuple(grouped, order[i], groups[order[i]])
      decreases rest
    {
      var k :| k in rest;
      out := out + [ResultTuple(grouped, k, groups[k])];
      order := order + [k];
      rest := rest - {k};
    }
  }
}

=== FILE: Ids.dfy ===
/** Identities shared by the lock table, the wait-for graph and the page cache. */
module Ids {

  /** An opaque transaction identity; two transactions are the same iff their ids are equal. */
  datatype Tid = Tid(id: nat)

  /** A page identity: the table it belongs to and its number within that table's file. */
  datatype PageId = PageId(tableId: int, pageNo: nat)
}

=== FILE: IntegerAggregator.dfy ===
/** IntegerAggregator.java: MIN, MAX, SUM, COUNT or AVG of an integer
    field, per group. A map from group key to accumulator is folded over
    the merged tuples and read out by `iterator`. */
module IntegerAggregator {
  import opened Wrappers
  import opened Groups

  /** A group's accumulator: one integer, or AVG's (count, sum) pair. */
  datatype Acc = Scalar(v: int) | AvgPair(count: int, sum: int)

  /** The aggregator: its constructor arguments and the group map `m`. */
  datatype IntAgg = IntAgg(gbfield: int, gbfieldtype: Option<FieldType>, afield: int,
                           what: AggOp, groups: map<GroupKey, Acc>)

  /** An accumulator has the shape the operator gives it; AVG has counted
      at least one value. */
  predicate Fits(what: AggOp, a: Acc)
  {
    (what == Avg <==> a.AvgPair?) && (a.AvgPair? ==> a.count >= 1)
  }

  predicate Wf(agg: IntAgg)
  {
    && KeysShaped(agg.gbfield, agg.groups.Keys)
    && forall k :: k in agg.groups ==> Fits(agg.what, agg.groups[k])
  }

  /** The constructor: no groups yet. */
  function New(gbfield: int, gbfieldtype: Option<FieldType>, afield: int, what: AggOp): (agg: IntAgg)
    ensures Wf(agg) && agg.groups == map[]
    ensures agg.gbfield == gbfield && agg.afield == afield && agg.what == what
  {
    IntAgg(gbfield, gbfieldtype, afield, what, map[])
  }

  /** `initial(b)`: the accumulator of a group whose first value is b. */
  function Initial(what: AggOp, b: int): (r: Acc)
    ensures Fits(what, r)
    ensures Summarizes(what, r, [b])
  {
    assert SeqSum([b]) == b + SeqSum([b][1..]) && [b][1..] == [];
    if what == Avg then AvgPair(1, b)
    else if what == Count then Scalar(1)
    else Scalar(b)
  }

  /** `reduce(a, b)`: fold one more value b into accumulator a. */
  function Reduce(what: AggOp, a: Acc, b: int): (r: Acc)
    requires Fits(what, a)
    ensures Fits(what, r)
  {
    if what == Avg then AvgPair(a.count + 1, a.sum + b)
    else
      match what
      case Min => Scalar(if a.v <= b then a.v else b)
      case Max => Scalar(if a.v >= b then a.v else b)
      case Sum => Scalar(a.v + b)
      case Count => Scalar(a.v + 1)
  }

  /** The tuple can be merged: it can be grouped and its aggregate field
      holds an integer (`getField` and the `(IntField)` cast fail otherwise). */
  predicate Mergeable(agg: IntAgg, tup: Tuple)
  {
    HasIntAt(agg.afield, tup) && Groupable(agg.gbfield, tup)
  }

  predicate HasIntAt(afield: int, tup: Tuple)
  {
    0 <= afield < |tup.fields| && tup.fields[afield].IntField?
  }

  function ValueOf(agg: IntAgg, tup: Tuple): int
    requires Mergeable(agg, tup)
  {
    tup.fields[agg.afield].value
  }

  /** `mergeTupleIntoGroup`: seed the tuple's group with `initial` or fold
      the value in with `reduce`; no other group changes. */
  function Merge(agg: IntAgg, tup: Tuple): (r: IntAgg)
    requires Wf(agg) && Mergeable(agg, tup)
    ensures r.gbfield == agg.gbfield && r.afield == agg.afield && r.what == agg.what
    ensures r.gbfieldtype == agg.gbfieldtype
    ensures r.groups.Keys == agg.groups.Keys + {KeyOf(agg.gbfield, tup)}
    ensures forall k :: k in agg.groups && k != KeyOf(agg.gbfield, tup) ==> r.groups[k] == agg.groups[k]
    ensures Wf(r)
  {
    var key := KeyOf(agg.gbfield, tup);
    var b := ValueOf(agg, tup);
    if key !in agg.groups then agg.(groups := agg.groups[key := Initial(agg.what, b)])
    else agg.(groups := agg.groups[key := Reduce(agg.what, agg.groups[key], b)])
  }

  /** Merging the tuples of ts one after the other. */
  function MergeAll(agg: IntAgg, ts: seq<Tuple>): (r: IntAgg)
    requires Wf(agg) && forall i :: 0 <= i < |ts| ==> Mergeable(agg, ts[i])
    ensures Wf(r) && r.gbfield == agg.gbfield && r.afield == agg.afield && r.what == agg.what
    decreases |ts|
  {
    if |ts| == 0 then agg
    else
      var prev := MergeAll(agg, ts[..|ts| - 1]);
      assert Mergeable(agg, ts[|ts| - 1]);
      Merge(prev, ts[|ts| - 1])
  }

  /** The aggregated values of ts, in order. */
  function Values(afield: int, ts: seq<Tuple>): (vs: seq<int>)
    requires forall i :: 0 <= i < |ts| ==> HasIntAt(afield, ts[i])
    ensures |vs| == |ts|
    ensures forall i :: 0 <= i < |ts| ==> HasIntAt(afield, ts[i]) && vs[i] == ts[i].fields[afield].value
    decreases |ts|
  {
    if |ts| == 0 then []
    else
      assert HasIntAt(afield, ts[|ts| - 1]);
      Values(afield, ts[..|ts| - 1]) + [ts[|ts| - 1].fields[afield].value]
  }

  /** Reference sum of a sequence, from the front. */
  function SeqSum(vs: seq<int>): int
  {
    if |vs| == 0 then 0 else vs[0] + SeqSum(vs[1..])
  }

  lemma {:induction false} SeqSumSnoc(vs: seq<int>, x: int)
    ensures SeqSum(vs + [x]) == SeqSum(vs) + x
    decreases |vs|
  {
    if |vs| > 0 {
      assert (vs + [x])[1..] == vs[1..] + [x];
      SeqSumSnoc(vs[1..], x);
    }
  }

  ghost predicate IsMinOf(m: int, vs: seq<int>)
  {
    m in vs && forall v :: v in vs ==> m <= v
  }

  ghost predicate IsMaxOf(m: int, vs: seq<int>)
  {
    m in vs && forall v :: v in vs ==> m >= v
  }

  /** The accumulator a group holds after its values vs were merged, in
      reference terms: COUNT the number of values, SUM their sum, AVG both,
      MIN and MAX an extreme value among them. */
  ghost predicate Summarizes(what: AggOp, a: Acc, vs: seq<int>)
  {
    match what
    case Count => a == Scalar(|vs|)
    case Sum => a == Scalar(SeqSum(vs))
    case Avg => a == AvgPair(|vs|, SeqSum(vs))
    case Min => a.Scalar? && IsMinOf(a.v, vs)
    case Max => a.Scalar? && IsMaxOf(a.v, vs)
  }

  /** `reduce` folds one more value into a summary: if a summarizes vs, then
      `reduce(a, b)` summarizes vs followed by b. */
  lemma ReduceSummarizes(what: AggOp, a: Acc, vs: seq<int>, b: int)
    requires Fits(what, a) && Summarizes(what, a, vs)
    ensures Summarizes(what, Reduce(what, a, b), vs + [b])
  {
    SeqSumSnoc(vs, b);
    var r := Reduce(what, a, b);
    match what
    case Min =>
      forall v | v in vs + [b]
        ensures r.v <= v
      {
        if v != b {
          assert v in vs;
        }
      }
    case Max =>
      forall v | v in vs + [b]
        ensures r.v >= v
      {
        if v != b {
          assert v in vs;
        }
      }
    case _ =>
  }

  /** Merging a non-empty sequence of tuples of one new group leaves that
      group summarizing exactly their values, and every other group as it was. */
  lemma {:induction false} MergeSameGroup(agg: IntAgg, ts: seq<Tuple>, k: GroupKey)
    requires Wf(agg) && k !in agg.groups && |ts| > 0
    requires forall i :: 0 <= i < |ts| ==> Mergeable(agg, ts[i]) && KeyOf(agg.gbfield, ts[i]) == k
    ensures k in MergeAll(agg, ts).groups
    ensures Summarizes(agg.what, MergeAll(agg, ts).groups[k], Values(agg.afield, ts))
    ensures MergeAll(agg, ts).groups == agg.groups[k := MergeAll(agg, ts).groups[k]]
    decreases |ts|
  {
    var init := ts[..|ts| - 1];
    var last := ts[|ts| - 1];
    var vs := Values(agg.afield, ts);
    var b := ValueOf(agg, last);
    assert vs == Values(agg.afield, init) + [b];
    if |init| == 0 {
      assert MergeAll(agg, init) == agg;
      assert vs == [b];
    } else {
      MergeSameGroup(agg, init, k);
      var prev := MergeAll(agg, init);
      assert MergeAll(agg, ts).groups[k] == Reduce(agg.what, prev.groups[k], b);
      ReduceSummarizes(agg.what, prev.groups[k], Values(agg.afield, init), b);
    }
  }

  /** Without grouping every tuple falls into the one key, so there is at
      most one group. */
  lemma UngroupedHasOneGroup(agg: IntAgg)
    requires Wf(agg) && agg.gbfield == NoGrouping
    ensures |agg.groups| <= 1
  {
    UngroupedHasOneKey(agg.groups.Keys);
  }

  /** Java's integer division, which rounds toward zero (section 15.17.2 of
      the Java Language Specification); Dafny's `/` is Euclidean instead (it
      rounds down only for a positive divisor). */
  function TruncDiv(a: int, b: int): (q: int)
    requires b != 0
    ensures Abs(q) == Abs(a) / Abs(b)
    ensures q < 0 ==> (a < 0) != (b < 0)
    ensures (a < 0) != (b < 0) ==> q <= 0
  {
    NatDivision(Abs(a), Abs(b));
    var q := Abs(a) / Abs(b);
    if (a < 0) != (b < 0) then -q else q
  }

  /** The quotient q of section 15.17.2: |q * b| is as large as possible
      without exceeding |a|, and q is negative only when the signs of a and
      b differ. Equivalently the remainder a - q * b is smaller than b in
      magnitude and carries the sign of a. */
  lemma TruncDivSpec(a: int, b: int)
    requires b != 0
    ensures var q := TruncDiv(a, b); var r := a - q * b;
      && (if b < 0 then -r < -b && r < -b else -r < b && r < b)
      && (r == 0 || (r < 0 <==> a < 0))
      && (q < 0 ==> (a < 0) != (b < 0))
  {
    var na := Abs(a);
    var nb := Abs(b);
    NatDivision(na, nb);
    TruncDivTimes(a, b);
  }

  function Abs(x: int): nat
  {
    if x < 0 then -x else x
  }

  /** Division of naturals: a non-negative quotient and a remainder below the divisor. */
  lemma NatDivision(n: nat, d: nat)
    requires d > 0
    ensures n / d >= 0 && n == (n / d) * d + n % d && 0 <= n % d < d
  {
  }

  /** The product of the quotient and the divisor carries the sign of the dividend. */
  lemma TruncDivTimes(a: int, b: int)
    requires b != 0
    ensures TruncDiv(a, b) * b == (if a < 0 then -((Abs(a) / Abs(b)) * Abs(b)) else (Abs(a) / Abs(b)) * Abs(b))
  {
    var q0 := Abs(a) / Abs(b);
    if b < 0 {
      MulNeg(q0, Abs(b));
    }
  }

  lemma MulNeg(x: int, y: int)
    ensures (-x) * (-y) == x * y && x * (-y) == -(x * y) && (-x) * y == -(x * y)
  {
  }

  /** v is what `iterator` should report for a group whose values are vs:
      their number, their sum, their sum over their number rounded toward
      zero, or a smallest/largest value among them. */
  ghost predicate Reports(what: AggOp, v: int, vs: seq<int>)
  {
    match what
    case Count => v == |vs|
    case Sum => v == SeqSum(vs)
    case Avg => |vs| > 0 && v == TruncDiv(SeqSum(vs), |vs|)
    case Min => IsMinOf(v, vs)
    case Max => IsMaxOf(v, vs)
  }

  /** The value `iterator` reports for a group: AVG's sum over count,
      rounded toward zero, and the accumulator itself otherwise. */
  function Final(what: AggOp, a: Acc): (v: int)
    requires Fits(what, a)
    ensures forall vs :: Summarizes(what, a, vs) ==> Reports(what, v, vs)
  {
    if what == Avg then TruncDiv(a.sum, a.count) else a.v
  }

  /** `iterator`: one result tuple per group, in some order, with the
      group's final value; (value) without grouping and (key, value) with it. */
  method Iterator(agg: IntAgg) returns (out: seq<Tuple>, ghost order: seq<GroupKey>)
    requires Wf(agg)
    ensures |out| == |order| == |agg.groups|
    ensures forall i, j :: 0 <= i < j < |order| ==> order[i] != order[j]
    ensures forall k :: k in agg.groups <==> k in order
    ensures forall i :: 0 <= i < |out| ==>
      out[i] == ResultTuple(agg.gbfield != NoGrouping, order[i], Final(agg.what, agg.groups[order[i]]))
    // (value) without grouping, (group value, value) with it
    ensures forall i :: 0 <= i < |out| ==>
      && |out[i].fields| == (if agg.gbfield == NoGrouping then 1 else 2)
      && out[i].fields[|out[i].fields| - 1] == IntField(Final(agg.what, agg.groups[order[i]]))
      && (agg.gbfield != NoGrouping ==> order[i].Group? && out[i].fields[0] == order[i].field)
    ensures agg.gbfield == NoGrouping ==> |out| <= 1
  {
    var grouped := agg.gbfield != NoGrouping;
    var finals := map k | k in agg.groups :: Final(agg.what, agg.groups[k]);
    assert finals.Keys == agg.groups.Keys;
    assert |finals| == |finals.Keys| == |agg.groups.Keys| == |agg.groups|;
    out, order := Emit(finals, grouped);
    if !grouped {
      UngroupedHasOneGroup(agg);
    }
  }

  /** The tuples of ts that fall into group k, in order. */
  function TuplesOf(agg: IntAgg, ts: seq<Tuple>, k: GroupKey): (r: seq<Tuple>)
    requires forall i :: 0 <= i < |ts| ==> Mergeable(agg, ts[i])
    ensures |r| <= |ts|
    ensures forall i :: 0 <= i < |r| ==> Mergeable(agg, r[i]) && KeyOf(agg.gbfield, r[i]) == k
    decreases |ts|
  {
    if |ts| == 0 then []
    else
      var last := ts[|ts| - 1];
      assert Mergeable(agg, last);
      var init := TuplesOf(agg, ts[..|ts| - 1], k);
      if KeyOf(agg.gbfield, last) == k then init + [last] else init
  }

  /** Merging any sequence ts, with its groups interleaved in any way: a
      group k that did not exist before exists afterwards exactly when some
      tuple of ts falls into it, and then summarizes exactly the values of
      those tuples, in the order they came. */
  lemma {:induction false} MergeAllSummarizes(agg: IntAgg, ts: seq<Tuple>, k: GroupKey)
    requires Wf(agg) && k !in agg.groups
    requires forall i :: 0 <= i < |ts| ==> Mergeable(agg, ts[i])
    ensures k in MergeAll(agg, ts).groups <==> |TuplesOf(agg, ts, k)| > 0
    ensures k in MergeAll(agg, ts).groups ==>
      Summarizes(agg.what, MergeAll(agg, ts).groups[k], Values(agg.afield, TuplesOf(agg, ts, k)))
    decreases |ts|
  {
    if |ts| > 0 {
      var init := ts[..|ts| - 1];
      var last := ts[|ts| - 1];
      assert Mergeable(agg, last);
      MergeAllSummarizes(agg, init, k);
      var prev := MergeAll(agg, init);
      var fs := TuplesOf(agg, init, k);
      assert MergeAll(agg, ts) == Merge(prev, last);
      if KeyOf(agg.gbfield, last) == k {
        assert TuplesOf(agg, ts, k) == fs + [last];
        ExtendGroup(prev, fs, last);
      } else {
        assert TuplesOf(agg, ts, k) == fs;
      }
    }
  }

  /** One merge step of group k: when prev's group k summarizes the values
      of fs (and exists exactly when fs is non-empty), merging a tuple of k
      makes it summarize the values of fs followed by that tuple. */
  lemma ExtendGroup(prev: IntAgg, fs: seq<Tuple>, last: Tuple)
    requires Wf(prev) && Mergeable(prev, last)
    requires forall i :: 0 <= i < |fs| ==> HasIntAt(prev.afield, fs[i])
    requires KeyOf(prev.gbfield, last) in prev.groups <==> |fs| > 0
    requires KeyOf(prev.gbfield, last) in prev.groups ==>
      Summarizes(prev.what, prev.groups[KeyOf(prev.gbfield, last)], Values(prev.afield, fs))
    ensures KeyOf(prev.gbfield, last) in Merge(prev, last).groups
    ensures Summarizes(prev.what, Merge(prev, last).groups[KeyOf(prev.gbfield, last)],
                       Values(prev.afield, fs + [last]))
  {
    var k := KeyOf(prev.gbfield, last);
    var b := ValueOf(prev, last);
    ValuesSnoc(prev.afield, fs, last);
    MergeOwnGroup(prev, last);
    if k in prev.groups {
      ReduceSummarizes(prev.what, prev.groups[k], Values(prev.afield, fs), b);
    } else {
      assert Values(prev.afield, fs) == [];
      assert Values(prev.afield, fs + [last]) == [b];
    }
  }

  lemma ValuesSnoc(afield: int, fs: seq<Tuple>, t: Tuple)
    requires forall i :: 0 <= i < |fs| ==> HasIntAt(afield, fs[i])
    requires HasIntAt(afield, t)
    ensures Values(afield, fs + [t]) == Values(afield, fs) + [t.fields[afield].value]
  {
    assert (fs + [t])[..|fs|] == fs;
  }

  /** The group a tuple is merged into is seeded by `initial` when new and
      folded by `reduce` otherwise. */
  lemma MergeOwnGroup(agg: IntAgg, tup: Tuple)
    requires Wf(agg) && Mergeable(agg, tup)
    ensures KeyOf(agg.gbfield, tup) in Merge(agg, tup).groups
    ensures Merge(agg, tup).groups[KeyOf(agg.gbfield, tup)] ==
      if KeyOf(agg.gbfield, tup) in agg.groups
      then Reduce(agg.what, agg.groups[KeyOf(agg.gbfield, tup)], ValueOf(agg, tup))
      else Initial(agg.what, ValueOf(agg, tup))
  {
  }

  /** What `iterator` reports for a group that did not exist before ts was
      merged, whatever other groups' tuples are interleaved with its own:
      COUNT their number, SUM the sum of their values, AVG that sum divided
      by their number rounded toward zero, and MIN/MAX a smallest/largest
      value among them. */
  lemma ReportedValue(agg: IntAgg, ts: seq<Tuple>, k: GroupKey)
    requires Wf(agg) && k !in agg.groups
    requires forall i :: 0 <= i < |ts| ==> Mergeable(agg, ts[i])
    ensures k in MergeAll(agg, ts).groups <==> |TuplesOf(agg, ts, k)| > 0
    ensures k in MergeAll(agg, ts).groups ==>
      Reports(agg.what, Final(agg.what, MergeAll(agg, ts).groups[k]), Values(agg.afield, TuplesOf(agg, ts, k)))
  {
    MergeAllSummarizes(agg, ts, k);
  }
}

=== FILE: LockTable.dfy ===
/** The per-page lock state of the buffer pool (class LockInfo in
    BufferPool.java): a set of shared holders and an optional exclusive
    holder, with the acquire / upgrade / release protocol. */
module LockTable {
  import opened Wrappers
  import opened Ids

  /** The permission a page is requested with. */
  datatype Perm = ReadOnly | ReadWrite

  /** Lock state of one page. */
  datatype LockInfo = LockInfo(shared: set<Tid>, exclusive: Option<Tid>)

  /** The state a lock is created in on the first request for its page. */
  const Unlocked: LockInfo := LockInfo({}, None)

  /** `holdsLock`: tid is the exclusive holder or one of the shared holders. */
  predicate Holds(l: LockInfo, tid: Tid)
  {
    l.exclusive == Some(tid) || tid in l.shared
  }

  /** No transaction other than tid holds the page exclusively. */
  predicate NoOtherExclusive(l: LockInfo, tid: Tid)
  {
    l.exclusive.None? || l.exclusive.value == tid
  }

  /** Mutual exclusion: when some transaction holds the page exclusively,
      nobody else shares it (the holder itself may also be in `shared`). */
  predicate Wf(l: LockInfo)
  {
    l.exclusive.Some? ==> l.shared <= {l.exclusive.value}
  }

  /** Outcome of one acquisition attempt: whether it was granted, and the
      lock state afterwards. */
  datatype Reply = Reply(granted: bool, lock: LockInfo)

  /** A set is contained in {x} iff it is empty or exactly {x}; this links
      the size tests of `tryGetLock` to containment. */
  lemma SubsetOfSingleton(s: set<Tid>, x: Tid)
    ensures s <= {x} <==> (|s| == 0 || (|s| == 1 && x in s))
  {
    if |s| == 1 && x in s {
      assert |s - {x}| == 0;
      assert s - {x} == {};
    }
    if s <= {x} && x !in s {
      assert s == {};
    }
    if s <= {x} && x in s {
      assert s == {x};
    }
  }

  /** `tryGetLock`: one non-blocking attempt by tid to take the page with
      permission perm. */
  function TryGetLock(l: LockInfo, tid: Tid, perm: Perm): (r: Reply)
    ensures r.granted <==> NoOtherExclusive(l, tid) && (perm == ReadWrite ==> l.shared <= {tid})
    ensures !r.granted ==> r.lock == l
    ensures r.granted && perm == ReadWrite ==> r.lock == LockInfo({}, Some(tid))
    ensures r.granted && perm == ReadOnly ==> r.lock == LockInfo(l.shared + {tid}, l.exclusive)
    ensures r.granted ==> Holds(r.lock, tid)
  {
    SubsetOfSingleton(l.shared, tid);
    if l.exclusive.Some? && l.exclusive.value != tid then Reply(false, l)
    else if perm == ReadWrite then
      if |l.shared| > 1 then Reply(false, l)
      else if |l.shared| == 1 && tid !in l.shared then Reply(false, l)
      else Reply(true, LockInfo({}, Some(tid)))
    else Reply(true, l.(shared := l.shared + {tid}))
  }

  /** `freeLock`: the exclusive holder gives up exclusivity only; anybody
      else is removed from the shared holders. */
  function FreeLock(l: LockInfo, tid: Tid): (r: LockInfo)
    ensures forall t :: t != tid ==> (Holds(r, t) <==> Holds(l, t))
    ensures l.exclusive == Some(tid) ==> r.shared == l.shared && r.exclusive.None?
    ensures l.exclusive != Some(tid) ==> r.shared == l.shared - {tid} && r.exclusive == l.exclusive
  {
    if l.exclusive.Some? && l.exclusive.value == tid then l.(exclusive := None)
    else l.(shared := l.shared - {tid})
  }

  /** Any request is refused while a different transaction holds the page
      exclusively, and the refusal changes nothing. */
  lemma DeniedUnderForeignExclusive(l: LockInfo, tid: Tid, other: Tid, perm: Perm)
    requires l.exclusive == Some(other) && other != tid
    ensures !TryGetLock(l, tid, perm).granted
    ensures TryGetLock(l, tid, perm).lock == l
  {
  }

  /** An exclusive request fails when two or more transactions share the
      page, or when the one sharer is somebody else; a lone sharer that is
      the requester upgrades in place. */
  lemma ExclusiveUpgrade(l: LockInfo, tid: Tid)
    requires NoOtherExclusive(l, tid)
    ensures |l.shared| > 1 ==> !TryGetLock(l, tid, ReadWrite).granted
    ensures (|l.shared| == 1 && tid !in l.shared) ==> !TryGetLock(l, tid, ReadWrite).granted
    ensures l.shared == {tid} ==> TryGetLock(l, tid, ReadWrite) == Reply(true, LockInfo({}, Some(tid)))
  {
    SubsetOfSingleton(l.shared, tid);
  }

  /** A shared request by the exclusive holder is granted and puts the
      holder into `shared` as well. */
  lemma SharedRequestByExclusiveHolder(l: LockInfo, tid: Tid)
    requires l.exclusive == Some(tid)
    ensures TryGetLock(l, tid, ReadOnly) == Reply(true, LockInfo(l.shared + {tid}, Some(tid)))
  {
  }

  /** Acquisition and release keep mutual exclusion. */
  lemma TryGetLockPreservesWf(l: LockInfo, tid: Tid, perm: Perm)
    requires Wf(l)
    ensures Wf(TryGetLock(l, tid, perm).lock)
  {
  }

  lemma FreeLockPreservesWf(l: LockInfo, tid: Tid)
    requires Wf(l)
    ensures Wf(FreeLock(l, tid))
  {
  }

  /** Under mutual exclusion, an exclusive holder is the only holder. */
  lemma ExclusiveHolderIsSole(l: LockInfo, t: Tid)
    requires Wf(l) && l.exclusive.Some?
    requires Holds(l, t)
    ensures t == l.exclusive.value
  {
  }

  /** After `freeLock(tid)` tid holds nothing, except when it was both the
      exclusive holder and a shared holder: then it keeps its shared hold. */
  lemma FreeLockReleases(l: LockInfo, tid: Tid)
    ensures Holds(FreeLock(l, tid), tid) <==> (l.exclusive == Some(tid) && tid in l.shared)
  {
  }
}

=== FILE: PageCache.dfy ===
/** The page cache of BufferPool.java: resident pages keyed by page id, the
    abstract disk behind them, and the NO-STEAL eviction, discard, flush and
    "put modified pages" operations on it. */
module PageCache {
  import opened Wrappers
  import opened Ids

  /** Page contents. */
  type Data = seq<bv8>

  /** The file collaborator: the persisted bytes of every page that exists. */
  type Disk = map<PageId, Data>

  /** A resident page: its id, current contents, the transaction that
      dirtied it (`isDirty()`, None when clean) and its before-image. */
  datatype Page = Page(id: PageId, data: Data, dirtyBy: Option<Tid>, before: Data)

  /** Failures of the cache layer: every resident page is dirty
      (DbException from `evictPage`), or the page cannot be read from disk. */
  datatype Error = BufferFull | StorageIO

  predicate IsClean(pg: Page)
  {
    pg.dirtyBy.None?
  }

  /** `markDirty(true, tid)`. */
  function MarkDirty(pg: Page, tid: Tid): Page
  {
    pg.(dirtyBy := Some(tid))
  }

  /** `markDirty(false, null)`. */
  function MarkClean(pg: Page): Page
  {
    pg.(dirtyBy := None)
  }

  /** `setBeforeImage()`: the current contents become the before-image. */
  function SetBeforeImage(pg: Page): Page
  {
    pg.(before := pg.data)
  }

  /** `getBeforeImage()`: a fresh, clean page holding the before-image. */
  function BeforeImage(pg: Page): Page
  {
    Page(pg.id, pg.before, None, pg.before)
  }

  /** `readPage(pid)` of the file collaborator: a clean page holding the
      persisted bytes, or nothing when the page does not exist. */
  function ReadPage(disk: Disk, pid: PageId): (r: Option<Page>)
    ensures r.Some? <==> pid in disk
    ensures r.Some? ==> r.value.id == pid && r.value.data == disk[pid] && IsClean(r.value)
  {
    if pid in disk then Some(Page(pid, disk[pid], None, disk[pid])) else None
  }

  /** Resident pages, by id. */
  type Cache = map<PageId, Page>

  /** Every resident page is stored under its own id. */
  predicate Keyed(c: Cache)
  {
    forall pid :: pid in c ==> c[pid].id == pid
  }

  /** Every resident page's before-image is the page's bytes on disk. */
  predicate BeforeOnDisk(c: Cache, disk: Disk)
  {
    forall pid :: pid in c ==> pid in disk && c[pid].before == disk[pid]
  }

  predicate AllDirty(c: Cache)
  {
    forall pid :: pid in c ==> !IsClean(c[pid])
  }

  /** `evictPage`: walk the resident pages in some order and discard the
      first clean one; fail when every resident page is dirty (NO-STEAL:
      a dirty page is never written back or dropped here). */
  method EvictPage(c: Cache) returns (r: Result<PageId, Error>, c': Cache)
    ensures r.Failure? <==> AllDirty(c)
    ensures r.Failure? ==> r.error == BufferFull && c' == c
    ensures r.Success? ==> r.value in c && IsClean(c[r.value])
    ensures r.Success? ==> c'.Keys == c.Keys - {r.value} && |c'| == |c| - 1
    ensures forall pid :: pid in c' ==> pid in c && c'[pid] == c[pid]
  {
    var rest := c.Keys;
    while rest != {}
      invariant rest <= c.Keys
      invariant forall pid :: pid in c.Keys - rest ==> !IsClean(c[pid])
      decreases rest
    {
      var pid :| pid in rest;
      if IsClean(c[pid]) {
        c' := DiscardPage(c, pid);
        return Success(pid), c';
      }
      rest := rest - {pid};
    }
    return Failure(BufferFull), c;
  }

  /** The cache half of `getPage`: a resident page is returned as it is; on
      a miss a full cache first evicts a clean page, then the page is read
      from disk, given its before-image and admitted. */
  method Fetch(c: Cache, capacity: int, disk: Disk, pid: PageId) returns (r: Result<Page, Error>, c': Cache)
    ensures pid in c ==> r == Success(c[pid]) && c' == c
    ensures r.Success? ==> pid in c' && c'[pid] == r.value
    ensures r.Success? && pid !in c ==> pid in disk && r.value == Page(pid, disk[pid], None, disk[pid])
    ensures r == Failure(BufferFull) <==> pid !in c && |c| >= capacity && AllDirty(c)
    ensures r == Failure(BufferFull) ==> c' == c
    ensures r == Failure(StorageIO) ==> pid !in disk
    ensures r.Failure? ==> pid !in c'
    ensures BeforeOnDisk(c, disk) ==> BeforeOnDisk(c', disk)
    ensures forall q :: q in c && q in c' ==> c'[q] == c[q]
    ensures forall q :: q in c && q !in c' ==> IsClean(c[q])
    ensures c'.Keys <= c.Keys + {pid}
    ensures |c| <= capacity ==> |c'| <= capacity
    // below capacity nothing is evicted; at capacity exactly one page makes room
    ensures pid !in c && |c| < capacity ==> c.Keys <= c'.Keys
    ensures pid !in c && |c| >= capacity && r.Success? ==> |c'| == |c|
    ensures Keyed(c) ==> Keyed(c')
  {
    if pid in c {
      return Success(c[pid]), c;
    }
    var ok;
    ok, c' := MakeRoom(c, capacity);
    if !ok {
      return Failure(BufferFull), c;
    }
    match ReadPage(disk, pid)
    case None =>
      r := Failure(StorageIO);
    case Some(pg) =>
      c' := c'[pid := SetBeforeImage(pg)];
      r := Success(c'[pid]);
  }

  /** The eviction step of a miss: a cache at capacity evicts a clean page
      first, and fails when it has none. */
  method MakeRoom(c: Cache, capacity: int) returns (ok: bool, c': Cache)
    ensures ok <==> !(|c| >= capacity && AllDirty(c))
    ensures |c| < capacity || !ok ==> c' == c
    ensures c'.Keys <= c.Keys && forall q :: q in c' ==> c'[q] == c[q]
    ensures forall q :: q in c && q !in c' ==> IsClean(c[q])
    ensures ok && |c| <= capacity ==> |c'| < capacity
    ensures ok && |c| >= capacity ==> |c'| == |c| - 1
  {
    c' := c;
    ok := true;
    if |c| >= capacity {
      var victim;
      victim, c' := EvictPage(c);
      ok := victim.Success?;
      if !ok {
        c' := c;
      }
    }
  }

  /** `discardPage`: drop the page, dirty or not, without writing it back. */
  function DiscardPage(c: Cache, pid: PageId): (r: Cache)
    ensures pid !in r && r.Keys == c.Keys - {pid}
    ensures pid in c ==> |r| == |c| - 1
    ensures pid !in c ==> r == c
    ensures forall q :: q in r ==> r[q] == c[q]
  {
    c - {pid}
  }

  /** `flushPage`: a resident page is written to disk and marked clean; an
      absent one is ignored. */
  function FlushPage(c: Cache, disk: Disk, pid: PageId): (r: (Cache, Disk))
    ensures pid !in c ==> r == (c, disk)
    ensures pid in c ==> pid in r.0 && pid in r.1 && r.1[pid] == r.0[pid].data && IsClean(r.0[pid])
    ensures pid in c ==> r.0[pid].data == c[pid].data && r.0[pid].before == c[pid].before
    ensures r.0.Keys == c.Keys && r.1.Keys == disk.Keys + (if pid in c then {pid} else {})
    ensures forall q :: q != pid && q in c ==> r.0[q] == c[q]
    ensures forall q :: q != pid && q in disk ==> r.1[q] == disk[q]
  {
    if pid !in c then (c, disk)
    else (c[pid := MarkClean(c[pid])], disk[pid := c[pid].data])
  }

  /** Flushing a page a second time changes nothing more. */
  lemma FlushIdempotent(c: Cache, disk: Disk, pid: PageId)
    ensures var (c1, d1) := FlushPage(c, disk, pid); FlushPage(c1, d1, pid) == (c1, d1)
  {
    if pid in c {
      var (c1, d1) := FlushPage(c, disk, pid);
      assert c1[pid := MarkClean(c1[pid])] == c1;
      assert d1[pid := c1[pid].data] == d1;
    }
  }

  /** The ids of a sequence of pages. */
  function IdsOf(ms: seq<Page>): (r: set<PageId>)
    ensures forall i :: 0 <= i < |ms| ==> ms[i].id in r
    decreases |ms|
  {
    if |ms| == 0 then {}
    else
      var r := IdsOf(ms[..|ms| - 1]) + {ms[|ms| - 1].id};
      assert forall i :: 0 <= i < |ms| - 1 ==> ms[..|ms| - 1][i] == ms[i];
      r
  }

  /** ms[k] is the last page of ms[..n] carrying its id. */
  ghost predicate LastWithId(ms: seq<Page>, k: int, n: int)
    requires 0 <= k < n <= |ms|
  {
    forall j :: k < j < n ==> ms[j].id != ms[k].id
  }

  /** The cache update of `insertTuple` and `deleteTuple`: each page the
      file collaborator reports as modified, in order, is marked dirty by
      tid and put in the cache, replacing any cached copy. No eviction
      happens, so the cache may grow past its capacity. */
  function PutModified(c: Cache, ms: seq<Page>, tid: Tid): (r: Cache)
    ensures r.Keys == c.Keys + IdsOf(ms)
    ensures forall q :: q in c && q !in IdsOf(ms) ==> r[q] == c[q]
    ensures Keyed(c) ==> Keyed(r)
    decreases |ms|
  {
    if |ms| == 0 then c
    else
      var last := ms[|ms| - 1];
      PutModified(c, ms[..|ms| - 1], tid)[last.id := MarkDirty(last, tid)]
  }

  /** The cached copy of each reported id is the last page reported with
      that id, marked dirty by tid: later pages replace earlier ones. */
  lemma {:induction false} PutModifiedLastWins(c: Cache, ms: seq<Page>, tid: Tid, k: int)
    requires 0 <= k < |ms| && LastWithId(ms, k, |ms|)
    ensures ms[k].id in PutModified(c, ms, tid)
    ensures PutModified(c, ms, tid)[ms[k].id] == MarkDirty(ms[k], tid)
    decreases |ms|
  {
    var init := ms[..|ms| - 1];
    if k < |init| {
      assert ms[|ms| - 1].id != ms[k].id;
      assert init[k] == ms[k];
      assert LastWithId(init, k, |init|) by {
        assert forall j :: k < j < |init| ==> init[j] == ms[j];
      }
      PutModifiedLastWins(c, init, tid, k);
    }
  }

  /** After the update every reported page is resident and dirty by tid. */
  lemma PutModifiedMarksAll(c: Cache, ms: seq<Page>, tid: Tid)
    ensures forall i :: 0 <= i < |ms| ==>
      ms[i].id in PutModified(c, ms, tid) && PutModified(c, ms, tid)[ms[i].id].dirtyBy == Some(tid)
  {
    var r := PutModified(c, ms, tid);
    forall i | 0 <= i < |ms|
      ensures r[ms[i].id].dirtyBy == Some(tid)
    {
      var k := LastIndexOf(ms, i);
      PutModifiedLastWins(c, ms, tid, k);
    }
  }

  /** When every reported page is a modified copy of a resident page with
      the same before-image, the update keeps the set of resident pages and
      every resident page's before-image. */
  lemma {:induction false} PutModifiedKeepsBefore(c: Cache, ms: seq<Page>, tid: Tid)
    requires forall i :: 0 <= i < |ms| ==> ms[i].id in c && ms[i].before == c[ms[i].id].before
    ensures PutModified(c, ms, tid).Keys == c.Keys
    ensures forall q :: q in c ==> PutModified(c, ms, tid)[q].before == c[q].before
    decreases |ms|
  {
    if |ms| > 0 {
      var init := ms[..|ms| - 1];
      assert forall i :: 0 <= i < |init| ==> init[i] == ms[i];
      PutModifiedKeepsBefore(c, init, tid);
    }
  }

  /** The last position in ms holding the same id as ms[i]. */
  ghost function LastIndexOf(ms: seq<Page>, i: int): (k: int)
    requires 0 <= i < |ms|
    ensures i <= k < |ms| && ms[k].id == ms[i].id && LastWithId(ms, k, |ms|)
    decreases |ms| - i
  {
    if exists j :: i < j < |ms| && ms[j].id == ms[i].id then
      var j :| i < j < |ms| && ms[j].id == ms[i].id;
      LastIndexOf(ms, j)
    else i
  }
}

=== FILE: StringAggregator.dfy ===
/** StringAggregator.java: COUNT over a field of any type, per group. Only
    the group keys of the merged tuples matter; the aggregate field is
    never read. */
module StringAggregator {
  import opened Wrappers
  import opened Groups

  /** The constructor's failure: an operator other than COUNT. */
  datatype Error = IllegalArgument

  /** The aggregator: its constructor arguments and the per-group counts `m`. */
  datatype StrAgg = StrAgg(gbfield: int, gbfieldtype: Option<FieldType>, afield: int,
                           groups: map<GroupKey, int>)

  predicate Wf(agg: StrAgg)
  {
    KeysShaped(agg.gbfield, agg.groups.Keys)
  }

  /** The constructor accepts COUNT only (IllegalArgumentException otherwise). */
  function New(gbfield: int, gbfieldtype: Option<FieldType>, afield: int,
               what: AggOp): (r: Result<StrAgg, Error>)
    ensures r.Success? <==> what == Count
    ensures r.Failure? ==> r.error == IllegalArgument
    ensures r.Success? ==> r.value.groups == map[] && Wf(r.value)
    ensures r.Success? ==> r.value.gbfield == gbfield && r.value.afield == afield
  {
    if what != Count then Failure(IllegalArgument)
    else Success(StrAgg(gbfield, gbfieldtype, afield, map[]))
  }

  /** The count of group k, zero when the group does not exist yet. */
  function CountOf(groups: map<GroupKey, int>, k: GroupKey): int
  {
    if k in groups then groups[k] else 0
  }

  /** `mergeTupleIntoGroup`: the tuple's group counts one more; nothing else changes. */
  function Merge(agg: StrAgg, tup: Tuple): (r: StrAgg)
    requires Groupable(agg.gbfield, tup)
    ensures r.gbfield == agg.gbfield && r.afield == agg.afield && r.gbfieldtype == agg.gbfieldtype
    ensures r.groups.Keys == agg.groups.Keys + {KeyOf(agg.gbfield, tup)}
    ensures CountOf(r.groups, KeyOf(agg.gbfield, tup)) == CountOf(agg.groups, KeyOf(agg.gbfield, tup)) + 1
    ensures forall k :: k != KeyOf(agg.gbfield, tup) ==> CountOf(r.groups, k) == CountOf(agg.groups, k)
    ensures Wf(agg) ==> Wf(r)
  {
    var key := KeyOf(agg.gbfield, tup);
    if key !in agg.groups then agg.(groups := agg.groups[key := 1])
    else agg.(groups := agg.groups[key := agg.groups[key] + 1])
  }

  predicate AllGroupable(gbfield: int, ts: seq<Tuple>)
  {
    forall i :: 0 <= i < |ts| ==> Groupable(gbfield, ts[i])
  }

  /** Merging the tuples of ts one after the other. */
  function MergeAll(agg: StrAgg, ts: seq<Tuple>): (r: StrAgg)
    requires AllGroupable(agg.gbfield, ts)
    ensures r.gbfield == agg.gbfield && r.afield == agg.afield && r.gbfieldtype == agg.gbfieldtype
    ensures Wf(agg) ==> Wf(r)
    decreases |ts|
  {
    if |ts| == 0 then agg
    else
      assert Groupable(agg.gbfield, ts[|ts| - 1]);
      Merge(MergeAll(agg, ts[..|ts| - 1]), ts[|ts| - 1])
  }

  /** The group keys of ts, in order. */
  function KeysOf(gbfield: int, ts: seq<Tuple>): (ks: seq<GroupKey>)
    requires AllGroupable(gbfield, ts)
    ensures |ks| == |ts|
    ensures forall i :: 0 <= i < |ts| ==> Groupable(gbfield, ts[i]) && ks[i] == KeyOf(gbfield, ts[i])
    decreases |ts|
  {
    if |ts| == 0 then []
    else
      assert Groupable(gbfield, ts[|ts| - 1]);
      KeysOf(gbfield, ts[..|ts| - 1]) + [KeyOf(gbfield, ts[|ts| - 1])]
  }

  /** After merging ts, group k counts its earlier tuples plus the tuples
      of ts that carry k, and exists exactly when it existed before or some
      tuple of ts carries k. */
  lemma {:induction false} MergeAllCounts(agg: StrAgg, ts: seq<Tuple>, k: GroupKey)
    requires AllGroupable(agg.gbfield, ts)
    ensures CountOf(MergeAll(agg, ts).groups, k) ==
      CountOf(agg.groups, k) + multiset(KeysOf(agg.gbfield, ts))[k]
    ensures k in MergeAll(agg, ts).groups <==> k in agg.groups || k in KeysOf(agg.gbfield, ts)
    decreases |ts|
  {
    if |ts| > 0 {
      var init := ts[..|ts| - 1];
      var last := ts[|ts| - 1];
      assert AllGroupable(agg.gbfield, init);
      MergeAllCounts(agg, init, k);
      var key := KeyOf(agg.gbfield, last);
      assert KeysOf(agg.gbfield, ts) == KeysOf(agg.gbfield, init) + [key];
      assert multiset(KeysOf(agg.gbfield, ts)) == multiset(KeysOf(agg.gbfield, init)) + multiset{key};
    }
  }

  /** n tuples of one group merged into an aggregator without that group
      give it the count n. */
  lemma SameGroupCountsAll(agg: StrAgg, ts: seq<Tuple>, k: GroupKey)
    requires AllGroupable(agg.gbfield, ts) && k !in agg.groups
    requires forall i :: 0 <= i < |ts| ==> KeyOf(agg.gbfield, ts[i]) == k
    ensures CountOf(MergeAll(agg, ts).groups, k) == |ts|
  {
    MergeAllCounts(agg, ts, k);
    var ks := KeysOf(agg.gbfield, ts);
    assert forall i :: 0 <= i < |ks| ==> ks[i] == k;
    MultisetOfConstant(ks, k);
  }

  lemma {:induction false} MultisetOfConstant(ks: seq<GroupKey>, k: GroupKey)
    requires forall i :: 0 <= i < |ks| ==> ks[i] == k
    ensures multiset(ks)[k] == |ks|
    decreases |ks|
  {
    if |ks| > 0 {
      assert ks == ks[..|ks| - 1] + [k];
      MultisetOfConstant(ks[..|ks| - 1], k);
    }
  }

  /** The counts depend only on the group keys, and not on their order:
      two tuple sequences whose keys agree as multisets give the same groups,
      whatever their aggregate fields hold. */
  lemma CountsDependOnKeysOnly(agg: StrAgg, ts1: seq<Tuple>, ts2: seq<Tuple>)
    requires AllGroupable(agg.gbfield, ts1) && AllGroupable(agg.gbfield, ts2)
    requires multiset(KeysOf(agg.gbfield, ts1)) == multiset(KeysOf(agg.gbfield, ts2))
    ensures MergeAll(agg, ts1).groups == MergeAll(agg, ts2).groups
  {
    var g1 := MergeAll(agg, ts1).groups;
    var g2 := MergeAll(agg, ts2).groups;
    forall k
      ensures (k in g1 <==> k in g2) && CountOf(g1, k) == CountOf(g2, k)
    {
      SameKeysSameCount(agg, ts1, ts2, k);
    }
    CountsDetermineGroups(g1, g2);
  }

  /** Two count maps with the same groups and the same counts are equal. */
  lemma CountsDetermineGroups(g1: map<GroupKey, int>, g2: map<GroupKey, int>)
    requires forall k :: (k in g1 <==> k in g2) && CountOf(g1, k) == CountOf(g2, k)
    ensures g1 == g2
  {
    assert g1.Keys == g2.Keys;
  }

  /** One group of `CountsDependOnKeysOnly`. */
  lemma SameKeysSameCount(agg: StrAgg, ts1: seq<Tuple>, ts2: seq<Tuple>, k: GroupKey)
    requires AllGroupable(agg.gbfield, ts1) && AllGroupable(agg.gbfield, ts2)
    requires multiset(KeysOf(agg.gbfield, ts1)) == multiset(KeysOf(agg.gbfield, ts2))
    ensures k in MergeAll(agg, ts1).groups <==> k in MergeAll(agg, ts2).groups
    ensures CountOf(MergeAll(agg, ts1).groups, k) == CountOf(MergeAll(agg, ts2).groups, k)
  {
    var ks1 := KeysOf(agg.gbfield, ts1);
    var ks2 := KeysOf(agg.gbfield, ts2);
    MergeAllCounts(agg, ts1, k);
    MergeAllCounts(agg, ts2, k);
    assert k in ks1 <==> k in multiset(ks1);
    assert k in ks2 <==> k in multiset(ks2);
  }

  /** Without grouping the one group counts every merged tuple. */
  lemma UngroupedCountsAll(agg: StrAgg, ts: seq<Tuple>)
    requires agg.gbfield == NoGrouping && agg.groups == map[] && |ts| > 0
    ensures AllGroupable(agg.gbfield, ts)
    ensures MergeAll(agg, ts).groups == map[Ungrouped := |ts|]
  {
    SameGroupCountsAll(agg, ts, Ungrouped);
    var g := MergeAll(agg, ts).groups;
    var ks := KeysOf(agg.gbfield, ts);
    forall k
      ensures k in g <==> k == Ungrouped
    {
      MergeAllCounts(agg, ts, k);
      assert ks[0] == Ungrouped;
    }
    assert g.Keys == {Ungrouped};
  }

  /** `iterator`: one result tuple per group, holding the group's count;
      (count) without grouping and (key, count) with it. */
  method Iterator(agg: StrAgg) returns (out: seq<Tuple>, ghost order: seq<GroupKey>)
    requires Wf(agg)
    ensures |out| == |order| == |agg.groups|
    ensures forall i, j :: 0 <= i < j < |order| ==> order[i] != order[j]
    ensures forall k :: k in agg.groups <==> k in order
    ensures forall i :: 0 <= i < |out| ==>
      out[i] == ResultTuple(agg.gbfield != NoGrouping, order[i], agg.groups[order[i]])
    // (count) without grouping, (group value, count) with it
    ensures forall i :: 0 <= i < |out| ==>
      && |out[i].fields| == (if agg.gbfield == NoGrouping then 1 else 2)
      && out[i].fields[|out[i].fields| - 1] == IntField(agg.groups[order[i]])
      && (agg.gbfield != NoGrouping ==> order[i].Group? && out[i].fields[0] == order[i].field)
    ensures agg.gbfield == NoGrouping ==> |out| <= 1
  {
    out, order := Emit(agg.groups, agg.gbfield != NoGrouping);
    if agg.gbfield == NoGrouping {
      UngroupedHasOneKey(agg.groups.Keys);
    }
  }
}

=== FILE: WaitForGraph.dfy ===
/** The wait-for graph of BufferPool.java: an edge tid -> other means tid
    waits for a page that other holds. A blocked request records its
    edges, a granted one removes them, and a depth-first search from the
    requester looks for a path back to it. */
module WaitForGraph {
  import opened Ids
  import LockTable

  /** `edges`: each waiting transaction mapped to the holders it waits for. */
  type Graph = map<Tid, set<Tid>>

  /** `edges.getOrDefault(t, {})`. */
  function Succ(g: Graph, t: Tid): set<Tid>
  {
    if t in g then g[t] else {}
  }

  /** Every transaction appearing in the graph, as a waiter or as a holder. */
  ghost function Nodes(g: Graph): set<Tid>
  {
    g.Keys + (set v, w | v in g && w in g[v] :: w)
  }

  /** p follows edges of g from its first to its last element. */
  ghost predicate IsPath(g: Graph, p: seq<Tid>)
  {
    forall i :: 0 <= i < |p| - 1 ==> p[i + 1] in Succ(g, p[i])
  }

  /** p is a path of at least one edge from a to b. */
  ghost predicate PathFromTo(g: Graph, p: seq<Tid>, a: Tid, b: Tid)
  {
    |p| >= 2 && p[0] == a && p[|p| - 1] == b && IsPath(g, p)
  }

  /** The reference definition of a deadlock involving root: a non-empty
      path from root back to root. */
  ghost predicate OnCycle(g: Graph, root: Tid)
  {
    exists p :: PathFromTo(g, p, root, root)
  }

  /** The holders of a page: its exclusive holder, if any, and its shared holders. */
  function Holders(l: LockTable.LockInfo): (r: set<Tid>)
    ensures forall t :: t in r <==> LockTable.Holds(l, t)
  {
    (if l.exclusive.Some? then {l.exclusive.value} else {}) + l.shared
  }

  /** `updateGraph`: tid's outgoing edges become the current holders of the
      contested page; no other entry changes. */
  function UpdateGraph(g: Graph, tid: Tid, l: LockTable.LockInfo): (r: Graph)
    ensures r.Keys == g.Keys + {tid}
    ensures forall t :: t in Succ(r, tid) <==> LockTable.Holds(l, t)
    ensures forall t :: t != tid ==> Succ(r, t) == Succ(g, t)
  {
    g[tid := Holders(l)]
  }

  /** `clearGraph`: only tid's entry is removed. */
  function ClearGraph(g: Graph, tid: Tid): (r: Graph)
    ensures tid !in r && Succ(r, tid) == {}
    ensures forall t :: t != tid ==> (t in r <==> t in g) && Succ(r, t) == Succ(g, t)
  {
    g - {tid}
  }

  /** Every node of D has all its successors in V and none of them is root:
      the nodes of D are fully explored and lead nowhere near root. */
  ghost predicate Explored(g: Graph, D: set<Tid>, V: set<Tid>, root: Tid)
  {
    forall v :: v in D ==> Succ(g, v) <= V && root !in Succ(g, v)
  }

  /** A set closed under the successor relation. */
  ghost predicate Closed(g: Graph, U: set<Tid>)
  {
    forall v :: v in U ==> Succ(g, v) <= U
  }

  lemma NodesClosed(g: Graph, root: Tid)
    ensures Closed(g, Nodes(g) + {root})
  {
    forall v | v in Nodes(g) + {root}
      ensures Succ(g, v) <= Nodes(g) + {root}
    {
      if v in g {
        forall w | w in g[v]
          ensures w in Nodes(g)
        {
        }
      }
    }
  }

  /** `dfs(cur, root)` with the shared `visited` set threaded through.
      `stack` holds the nodes whose search is still in progress, and
      `universe` is a successor-closed bound on the nodes the search can reach. */
  method Dfs(g: Graph, cur: Tid, root: Tid, visited: set<Tid>,
             ghost stack: set<Tid>, ghost universe: set<Tid>)
    returns (found: bool, visited': set<Tid>, ghost path: seq<Tid>)
    requires cur !in visited
    requires cur in universe && visited <= universe && Closed(g, universe)
    requires stack <= visited
    requires Explored(g, visited - stack, visited, root)
    ensures visited + {cur} <= visited' <= universe
    ensures found ==> PathFromTo(g, path, cur, root)
    ensures !found ==> Explored(g, visited' - stack, visited', root)
    decreases universe - visited
  {
    visited' := visited + {cur};
    found := false;
    path := [];
    var rest := Succ(g, cur);
    while rest != {}
      invariant rest <= Succ(g, cur)
      invariant visited + {cur} <= visited' <= universe
      invariant found ==> PathFromTo(g, path, cur, root)
      invariant !found ==> Explored(g, visited' - (stack + {cur}), visited', root)
      invariant !found ==> Succ(g, cur) - rest <= visited' && root !in Succ(g, cur) - rest
      decreases rest
    {
      var nxt :| nxt in rest;
      if nxt == root {
        return true, visited', [cur, root];
      }
      if nxt !in visited' && !found {
        ghost var sub: seq<Tid>;
        found, visited', sub := Dfs(g, nxt, root, visited', stack + {cur}, universe);
        if found {
          path := [cur] + sub;
        }
      }
      rest := rest - {nxt};
    }
  }

  /** A path of at least one edge that starts at an explored node never
      ends at root: every edge it follows leaves an explored node, and no
      explored node has root as a successor. */
  lemma {:induction false} PathAvoidsRoot(g: Graph, p: seq<Tid>, V: set<Tid>, root: Tid)
    requires IsPath(g, p) && |p| >= 2 && p[0] in V
    requires Explored(g, V, V, root)
    ensures p[|p| - 1] != root
    decreases |p|
  {
    assert p[1] in Succ(g, p[0]);
    if |p| > 2 {
      PathAvoidsRoot(g, p[1..], V, root);
    }
  }

  /** A search that ends without finding root has explored every node
      reachable from root, and none of them leads back to root. */
  lemma NoCycleWhenExplored(g: Graph, root: Tid, V: set<Tid>)
    requires root in V && Explored(g, V, V, root)
    ensures !OnCycle(g, root)
  {
    if p :| PathFromTo(g, p, root, root) {
      PathAvoidsRoot(g, p, V, root);
    }
  }

  /** `findCycle(root)`: clears the visited set and searches from root. It
      reports a cycle exactly when a non-empty path leads from root back to root. */
  method FindCycle(g: Graph, root: Tid) returns (found: bool)
    ensures found <==> OnCycle(g, root)
  {
    ghost var universe := Nodes(g) + {root};
    NodesClosed(g, root);
    var visited: set<Tid>;
    ghost var path: seq<Tid>;
    found, visited, path := Dfs(g, root, root, {}, {}, universe);
    if !found {
      NoCycleWhenExplored(g, root, visited);
    }
  }

  /** The requester may appear among the holders of the page it waits for
      (it holds a shared lock and asks for an upgrade); the graph then has a
      self-loop and a deadlock is reported at once. */
  lemma SelfWaitIsCycle(g: Graph, tid: Tid, l: LockTable.LockInfo)
    requires LockTable.Holds(l, tid)
    ensures OnCycle(UpdateGraph(g, tid, l), tid)
  {
    var r := UpdateGraph(g, tid, l);
    assert PathFromTo(r, [tid, tid], tid, tid);
  }
}

=== FILE: Wrappers.dfy ===
/** Plain option and result types used across the model: an optional value
    (Java's nullable reference) and a result that is either a value or an
    error (Java's checked and unchecked exceptions). */
module Wrappers {

  datatype Option<+T> = None | Some(value: T)

  datatype Result<+R, +E> = Success(value: R) | Failure(error: E)
}
